=== FILE: README.md ===
# node-glob's synchronous walker, modelled in Dafny

This project models the core of `src/index.ts`: the pattern-driven directory
walk behind `glob(pattern, options)`. Patterns arrive already compiled. Each
one is a list of segments, and each segment is `**` (`GLOBSTAR`), a literal
string or a regular expression; the pattern's raw tokens serve as cache keys.

The walker keeps a stack of work units. Each unit holds:
- a pattern;
- a frontier: the set of segment indexes still to match;
- the indexes reached through a symbolic link;
- a path relative to the root.

For each unit it pops, the walker:
1. marks the unit as scheduled;
2. handles a leading "", ".." or "." segment by moving the unit;
3. reports a result when the last segment is reached;
4. lists the directory and computes each child's next frontier.

A `Cache` object memoises `lstat` and `readdir` per path and records which
(path, pattern suffix) pairs were already scheduled.

Modules:
- `Wrappers` (`wrappers.dfy`): `Option` and `Result`.
- `Paths` (`paths.dfy`): `join`, `resolve` and `relative` on segment lists.
- `FsOracle` (`filesystem.dfy`): an immutable filesystem snapshot that answers `lstat` and `readdir`.
- `Patterns` (`patterns.dfy`): compiled segments, `testPattern`, and the scheduling key.
- `GlobCache` (`cache.dfy`): the `Cache` class. Its methods update three map fields. Each method is specified by a function on those maps, and lemmas state the caching guarantees.
- `Walker` (`walker.dfy`): the loop body as functions on values.
  - `StepUnit` is one pop of the queue.
  - `Run` is the whole loop. It takes a fuel bound.
- `WalkerFacts` (`walker_facts.dfy`): invariants of the walk, including:
  - where results and queued units can come from;
  - results only grow and stay free of duplicates;
  - the fuel bound does not change an outcome once the walk has ended.
- `Scenarios` (`scenarios.dfy`): whole walks on a small filesystem snapshot, followed pop by pop.
- `Glob` (`glob.dfy`): the imperative walk.
  - Its `while` loop runs over a `Cache` object, with the `for` loop over children and the `forEach` over the frontier inside it.
  - Each method is proved to compute the matching `Walker` function.
  - `GlobSyncImpl` is proved to return `Run` of the initial state.

JavaScript `Set`s iterate in insertion order. They are modelled as
sequences without duplicates, grown by `Insert`. As a result the walk is
deterministic, and the order of results is the order the source reports them.

Behaviour of the code that the model keeps as it is:
- Results can be relative, absolute, or both. The probe of a literal last segment reports its path relative to the root (line 144). The child loop reports `join(path, name)` (lines 162, 183, 191, 234, 241, 251), which is absolute below "/". `Scenarios.AbsolutePatternReportsBoth` shows `glob("/c")` reporting both `c` and `/c`.
- Under `**`, a child that matches the next segment gets frontier index `index + 2` whatever its kind (lines 192-197). `WalkerFacts.LookaheadIgnoresKind` shows this for a plain file.
- A pattern whose segment "." is the last one reads `pattern[last + 1]`, which is `undefined`. `testPattern(undefined, name)` then throws a `TypeError` (line 238). The model ends the walk with `Crashed(TypeError)`.
- `addToStatCache` stores entries under the relative `entryPath` (line 163), but `statSync` is looked up with the resolved `fullpath` (line 118). The two kinds of key are kept distinct, as in the code.

## Model

| member | source | states |
|---|---|---|
| GlobCache.KeysOf | src/index.ts:74 | every index added contributes its key to the set `add` inserts (exactly: `GlobCache.KeysOfExact`) |
| GlobCache.KeysOfExact | src/index.ts:66-75 | the keys `add` inserts at a path are exactly the cache keys of the given indexes, so no other suffix is marked there |
| GlobCache.StatLookup | src/index.ts:27-39 | `statSync` on the stat map: the stored value, or `lstat` stored and returned (properties: `GlobCache.StatMemoised`, `GlobCache.StatFirstCall`) |
| GlobCache.ListingLookup | src/index.ts:43-55 | `readdirSync` on the listing map (property: `GlobCache.ListingMemoised`) |
| GlobCache.Marked | src/index.ts:66-75 | `add` on the seen map (properties: `GlobCache.MarkedSeen`, `GlobCache.MarkedMonotone`, `GlobCache.MarkedElsewhere`) |
| GlobCache.Scheduled | src/index.ts:76-78 | `seen` on the seen map: the path has a set holding the index's key |
| GlobCache.StatMemoised | src/index.ts:27-39 | after a `statSync` of a path, a second one leaves the cache alone and returns the same value, whatever the filesystem says at the time of the second call |
| GlobCache.StatFirstCall | src/index.ts:31-38 | the first `statSync` of a path returns `lstat` of it, and a failing `lstat` is stored as `null` |
| GlobCache.ListingMemoised | src/index.ts:43-55 | a failing first read yields the empty list, and a repeated `readdirSync` returns the identical list and changes nothing, whatever the filesystem says at the time of the repeat |
| GlobCache.MarkedSeen | src/index.ts:66-78 | after `add(path, keys, indexes)`, `seen(path, keys, i)` holds for every `i` in `indexes` |
| GlobCache.MarkedMonotone | src/index.ts:66-78 | `add` forgets nothing: whatever was seen at any path is still seen |
| GlobCache.MarkedElsewhere | src/index.ts:66-78 | `add` at one path leaves what is seen at every other path unchanged, so a path never added stays unseen |
| GlobCache.Cache.constructor | src/index.ts:22-25 | a new cache has all three maps empty |
| GlobCache.Cache.StatSync | src/index.ts:27-39 | returns the stored value when there is one and changes nothing; otherwise stores and returns `lstat` of the path (`null` on failure) |
| GlobCache.Cache.AddToStatCache | src/index.ts:40-42 | overwrites the stat entry of the path with the child's kind and changes nothing else |
| GlobCache.Cache.ReaddirSync | src/index.ts:43-55 | returns the stored listing when there is one; otherwise stores and returns the listing, or `[]` when the read fails |
| GlobCache.Cache.CacheKey | src/index.ts:56-65 | the loop builds `keys[index..]` joined with "/" (`JoinFrom`) |
| GlobCache.Cache.Add | src/index.ts:66-75 | the seen-set of `path` becomes its old set (or the empty set) plus the key of every index, and other paths are unchanged |
| GlobCache.Cache.Seen | src/index.ts:76-78 | true exactly when the path has a set that holds the index's key; a path never added gives false |
| Patterns.TestPatternCases | src/index.ts:82-93 | `**` matches every name, a literal matches exactly the name equal to it (so at most one name), and a regular expression matches the names its `test` accepts |
| Patterns.TestPattern | src/index.ts:82-93 | `testPattern` on the three kinds of compiled segment (properties: `Patterns.TestPatternCases`) |
| Patterns.JoinFrom | src/index.ts:56-65 | the key `#cacheKey` builds: `keys[index..]` joined with "/" (properties: `Patterns.SplitJoinFrom`, `Patterns.KeyIdentifiesSuffix`) |
| Patterns.JoinFromShape | src/index.ts:56-65 | the key past the last token is ""; otherwise it ends with the last token: no "/" is added after it, so when the last token is "" and the index is before it, the key ends in "/" (as for `**/`, tokens `["**", ""]`, key "**/") |
| Patterns.SplitJoinFrom | src/index.ts:56-65 | for tokens without "/", splitting the key at "/" gives back `keys[i..]` |
| Patterns.KeyIdentifiesSuffix | src/index.ts:56-65 | for tokens without "/" and two indexes inside the pattern (both below the number of tokens), the indexes have the same key exactly when the token suffixes from them are equal; past the end this fails, e.g. for `["a", ""]` indexes 1 and 2 both have the key "" |
| Patterns.JoinFromSuffix | src/index.ts:56-65 | the key depends only on the token suffix |
| Paths.RelativeResolve | src/index.ts:144 | `relative(root, resolve(root, p))` is `p` for a plain relative path `p` |
| Paths.LiteralResultIsJoin | src/index.ts:141-144 | for a unit at a plain path, the literal result `relative(root, resolve(fullpath, name))` is `join(path, name)` |
| Paths.Join | src/index.ts:162 | `path.join(p, name)` on segments |
| Paths.Resolve | src/index.ts:117 | `path.resolve(base, p)` on segments, against the process's working directory |
| Paths.ResolveBelow | src/index.ts:141 | resolving a plain name against a resolved plain relative path is resolving the longer path from the root |
| Paths.ResolvePlain | src/index.ts:117 | resolving a plain relative path appends its segments to the normalised base, which has plain segments only |
| Paths.Relative | src/index.ts:144 | `path.relative(from, to)` on segments, "" read as "." (property: `Paths.RelativeResolve`) |
| FsOracle.Lstat | src/index.ts:33 | `lstatSync` read from the filesystem snapshot, `None` when it throws |
| FsOracle.Readdir | src/index.ts:49 | `readdirSync` read from the filesystem snapshot, `None` when it throws |
| Walker.Insert | src/index.ts:149 | `set.add(x)`: the result holds `x` and exactly the elements it held before |
| Walker.GlobstarFrontier | src/index.ts:178-205 | the frontier part of the `**` branch never touches the queue |
| Walker.GlobstarLookahead | src/index.ts:207-226 | the `**` then ".." lookahead only pushes units of the same pattern with non-empty frontiers, above the existing queue |
| Walker.GlobstarStep | src/index.ts:177-227 | the `**` branch only pushes units of the same pattern above the existing queue |
| Walker.LiteralStep | src/index.ts:229-246 | the literal branch never touches the queue |
| Walker.RegexStep | src/index.ts:247-255 | the regular-expression branch never touches the queue |
| Walker.IndexBody | src/index.ts:172-255 | one frontier index only pushes units of the same pattern above the existing queue |
| Walker.IndexStep | src/index.ts:167-256 | the same, including the redundancy guard |
| Walker.FoldIndexes | src/index.ts:167-256 | the whole `forEach` over the frontier only pushes units of the same pattern above the existing queue |
| Walker.ChildStep | src/index.ts:157-261 | one child only pushes units of the same pattern with non-empty frontiers above the existing queue |
| Walker.FoldChildren | src/index.ts:157-261 | the child loop only pushes units of the same pattern with non-empty frontiers above the existing queue |
| Walker.StepUnit | src/index.ts:112-261 | every unit queued after one pop names a compiled pattern and has a non-empty frontier |
| Walker.Step | src/index.ts:111-112 | popping the top unit keeps every queued unit well formed |
| Walker.Run | src/index.ts:111-262 | the `while` loop, at most `fuel` iterations: `Finished` with the results when the queue empties, `Crashed` on the `TypeError` |
| Walker.RunFrom | src/index.ts:111-262 | the rest of the loop after one iteration |
| Walker.Redirect | src/index.ts:121-137 | the unit is moved exactly when its frontier holds 0 and the first segment is "", ".." or "."; the moved unit keeps the pattern and marks and has frontier {1} |
| Walker.EmitLast | src/index.ts:139-150 | the last-segment block as a function of the stat cache and the results (properties: `WalkerFacts.EmitLastRules`) |
| Walker.IsDirectory | src/index.ts:119 | a directory, or a symbolic link reached by a frontier index not marked as crossed |
| Walker.IsLast | src/index.ts:120 | the last index is on the frontier, or the pattern ends in `**` then "" and `**` is on the frontier of a directory |
| Walker.Skipped | src/index.ts:159 | a name starting with "." or rejected by `exclude` (property: `WalkerFacts.SkippedChildUntouched`) |
| Walker.Redundant | src/index.ts:169 | the child was already scheduled at `index` or `index + 1` (property: `WalkerFacts.RedundantIsSkipped`) |
| Walker.GlobstarSelf | src/index.ts:178-184 | `**` kept on a directory's frontier, or the child reported (properties: `WalkerFacts.GlobstarSelfEffect`) |
| Walker.GlobstarNext | src/index.ts:188-197 | the segment after `**` tested on the child (properties: `WalkerFacts.GlobstarNextEffect`) |
| Walker.GlobstarDescend | src/index.ts:198-202 | the next segment put on a directory's or link's frontier (properties: `WalkerFacts.GlobstarDescendEffect`) |
| WalkerFacts.InsertGrown | src/index.ts:149 | `set.add` keeps every element and keeps the set free of duplicates |
| WalkerFacts.GlobstarSelfEffect | src/index.ts:178-184 | exactly: a directory reached without crossing a link gets `index` itself; otherwise, when `**` is last and no link was crossed, the child is reported; nothing else changes |
| WalkerFacts.GlobstarNextEffect | src/index.ts:188-197 | exactly: a child matching the segment after `**` is reported when that segment is last, and gets `index + 2` otherwise; nothing else changes |
| WalkerFacts.GlobstarDescendEffect | src/index.ts:198-202 | exactly: a directory or link reached without crossing a link gets `index + 1` when the next segment matches it or the pattern starts with "."; nothing else changes |
| WalkerFacts.GlobstarFrontierEffect | src/index.ts:178-206 | new frontier indexes lie in `index .. index + 2`; the only new result is the child; the child is marked at `index` exactly when it is a symbolic link; a directory reached without crossing a link keeps `**`; a match of the next segment that is not last gets `index + 2`; the queue is untouched |
| WalkerFacts.GlobstarLookaheadEffect | src/index.ts:208-227 | `**` then "" reports `path`; `**` then ".." last reports `path` and its parent; `**` then ".." with more to come pushes one unit per pair (`path`, parent) not yet scheduled at `index + 2`, with frontier {`index + 2`} and the unit's own marks; frontier indexes and marks are untouched |
| WalkerFacts.GlobstarEffect | src/index.ts:177-227 | the `**` branch as a whole keeps to those rules (`IndexEffect`) |
| WalkerFacts.LiteralStepEffect | src/index.ts:229-246 | exactly: a literal equal to the name matches at `index`, or "." is skipped and the next segment matches at `index + 1`; a match at the last segment reports the child, any other match adds the index after it; nothing else changes |
| WalkerFacts.LiteralStepThrows | src/index.ts:238 | the literal step throws exactly when "." is the last segment and is not the name itself, since `testPattern(undefined, name)` throws |
| WalkerFacts.RegexStepEffect | src/index.ts:247-255 | exactly: for a name the expression accepts, the child is reported at the last segment; otherwise a directory gets `index + 1` and anything else nothing |
| WalkerFacts.IndexBodyEffect | src/index.ts:172-255 | one frontier index of one child keeps to `IndexEffect`: results grow only by the child, `path` or its parent; frontier indexes added lie at most two past the index; pushed units are successors of the popped one |
| WalkerFacts.RedundantIsSkipped | src/index.ts:169-171 | a child already scheduled at `index` or `index + 1` is left alone for that index |
| WalkerFacts.FoldIndexesEffect | src/index.ts:167-256 | the whole `forEach` over the frontier keeps to `IndexEffect` for the whole frontier |
| WalkerFacts.SkippedChildUntouched | src/index.ts:159-161 | a child whose name starts with "." or that `exclude` rejects changes nothing: no result, no unit, no stat entry |
| WalkerFacts.ChildStepEffect | src/index.ts:162-260 | for a child not skipped: the stat cache becomes the old one with `join(path, name)` set to the child's kind; the results are those of the `forEach`; exactly one unit is pushed when `subPatterns` is non-empty, and it is at the child with frontier `subPatterns` and marks `nSymlinks`; in all cases new results and units stay within `ChildEffect` |
| WalkerFacts.FoldChildrenEffect | src/index.ts:157-261 | the child loop keeps to `ChildEffect`: the stat cache changes only at children not skipped; new results and queued paths are `path`, its parent or such a child; pushed units are successors of the popped one |
| WalkerFacts.EmitLastGrown | src/index.ts:139-150 | reaching the last segment keeps the old results in order and appends at most one |
| WalkerFacts.EmitLastKeepsStats | src/index.ts:139-145 | the probe of a literal last segment never changes a stat entry already cached |
| WalkerFacts.StatLookupKeeps | src/index.ts:27-39 | `statSync` never changes an entry already cached |
| WalkerFacts.EmitLastRules | src/index.ts:139-150 | results change only at the last segment; a regular expression last adds nothing here; a literal adds `relative(root, resolve(fullpath, last))` only when `lstat` of it succeeds and the literal is non-empty or names a directory or symbolic link; `**` adds `path`, and "." only when the pattern starts with "." or is the single `**` and the root exists; conversely, a literal that passes the probe and a `**` that passes the guard of line 146 do add their result |
| WalkerFacts.FirstSegmentRedirect | src/index.ts:122-137 | a unit with 0 on its frontier and a first segment "", ".." or "." reports nothing, lists nothing, is marked as scheduled, and is replaced by exactly one unit of the same pattern with frontier {1} and the same marks: at "/", at `relative(root, resolve(fullpath, ".."))`, or at the same path |
| Walker.Seeds | src/index.ts:104-109 | the queue the loop starts from, one unit per compiled alternative at "." with frontier {0} and no marks; `Walker.Init` adds the empty results and caches (property: `WalkerFacts.InitQueue`) |
| WalkerFacts.InitQueue | src/index.ts:106-109 | the initial queue is well formed, holds every compiled alternative exactly once at "." with frontier {0} and no marks, and has the last alternative on top |
| WalkerFacts.StepUnitEffect | src/index.ts:112-261 | one pop: results only grow, the queue below the popped unit is unchanged, and every pushed unit is a successor of the popped one (same pattern, frontier near the old one) |
| WalkerFacts.StepUnitMarks | src/index.ts:115-156 | one pop marks the unit as scheduled at every frontier index, never changes a cached listing, and does not list a path that is not a directory (line 119) |
| WalkerFacts.StepGrown | src/index.ts:111-261 | one iteration of the loop only adds to the results |
| WalkerFacts.RunResultsGrow | src/index.ts:104-262 | every result held before the loop is still held when it finishes, and no duplicates arise |
| WalkerFacts.GlobResultsDistinct | src/index.ts:104-266 | the result set a finished walk returns has no duplicates |
| WalkerFacts.RunFuelMonotone | src/index.ts:111 | once the walk has ended within some fuel, more fuel gives the same outcome |
| WalkerFacts.RunFromFuelMonotone | src/index.ts:111 | the same, for the rest of the loop after one iteration |
| WalkerFacts.LookaheadIgnoresKind | src/index.ts:192-197 | with pattern `**/a/b` and a plain file "a", the child's frontier is {2} |
| Scenarios.TreeIsSnapshot | src/index.ts:33-49 | a concrete tree ("/" holding a directory `a` with a file `b`, and a file `c`) answers `lstat` and `readdir` as `Scenarios.Snapshot` requires |
| Scenarios.LiteralAtRoot | src/index.ts:104-266 | on every filesystem where the process runs in "/", "/" lists a directory `a` and a file `c`, and `lstat` of "/name" succeeds for exactly those names, `glob(name)` for a plain name finishes after one pop with `[name]` when "/" lists it and with no result otherwise |
| Scenarios.PopAtDot | src/index.ts:112-261 | the only pop of that walk, at "." with frontier {0}, leaves an empty queue and reports `name` exactly when "/" lists it |
| Scenarios.AbsolutePatternReportsBoth | src/index.ts:104-266 | on every such filesystem `glob("/c")` finishes after two pops with both `c` (line 144) and `/c` (line 234), in that order |
| Scenarios.PopAtRoot | src/index.ts:111-262 | the second pop of `glob("/c")`, at "/" with frontier {1}, ends the walk with both results |
| Scenarios.ProbeAtRoot | src/index.ts:139-145 | for a unit at "/" whose last segment is a plain literal, with the process in "/" and the root ".", the probe stores `lstat` of "/name" and reports `name` relative to the root exactly when `lstat` succeeds |
| Glob.ExpandIndexes | src/index.ts:167-256 | the `forEach` over the frontier, with its `cache.seen` guard, computes `FoldIndexes` |
| Glob.ExpandChildren | src/index.ts:157-261 | the loop over children, with its `addToStatCache` calls and pushes, computes `FoldChildren`, including the `TypeError` |
| Glob.EmitLastSegment | src/index.ts:139-150 | the last-segment block computes `EmitLast`, including its `statSync` probe |
| Glob.ExpandUnit | src/index.ts:112-261 | the loop body computes `StepUnit` on the cache's three maps, including the `TypeError` |
| Glob.Iterate | src/index.ts:111-261 | one iteration leaves a state from which the remaining loop has the same outcome with one iteration less, or a throw that is the walk's outcome |
| Glob.GlobSyncImpl | src/index.ts:95-269 | the worklist loop returns `Run` from the seeded queue with empty caches: the same results, the same `TypeError`, or out of fuel |
| Glob.GlobOne | src/index.ts:380-382 | `glob` of one pattern is the walk of its compiled alternatives with `options.cwd` (default ".") and `options.exclude` |

## Left out

- `globSyncImpl_` (src/index.ts:271-378) is an unused draft variant that nothing exported calls.
- The `Glob` class, and the iterate and stream exports, are not modelled. They are thin adapters over `glob`, and their pattern rewriting depends on minimatch's `unescape`.
- Minimatch compilation (`new Minimatch`, `matcher.set`, `matcher.globParts`) is not modelled. The compiled segments and their raw tokens are inputs.
- Regular-expression matching is an opaque predicate on names. `testPattern`'s final `return false` covers descriptors that are none of the three kinds; the segment datatype has no such value.
- `lstatSync` and `readdirSync` are read from an immutable filesystem snapshot. A `Dirent` or `Stats` object is reduced to its kind: directory, symbolic link or other.
- Node's `path.resolve`, `relative` and `join` are functions on segment lists. Normalisation is lexical, as POSIX `path.normalize` is, and ".." above "/" stays at "/", as `path.resolve` does. Platform separators (the Windows flavour of `path`) are not modelled.
- The strings "" and "." are one Path value. With root "/", a leading ".." moves the unit to `relative("/", "/")`, which is "" because line 130 has no `|| "."`. The source then reports "" for `../**`, since "" passes the `path !== "."` test of line 146. The model reads that path as "." and does not report it.
- `validateObject` and `validateFunction` are no-ops and are left out.
- `hasMagic` comes from a file that is not part of this model.
- `Walker.Run`, `Glob.GlobSyncImpl`: no general theorem ties the results to the filesystem (every result exists, every match is found). The model proves that only for the filesystems `Scenarios.Snapshot` describes, for the patterns `name` and `/c`. Such a theorem would need a consistency condition between each listing and the nodes below it, which the snapshot does not impose.
- The `while` loop has no decreasing measure in the source. `Run`, `GlobSyncImpl` and `GlobOne` carry a fuel bound and an `OutOfFuel` outcome. `RunFuelMonotone` shows the bound never changes the outcome of a walk that has ended. No bound on the number of iterations is claimed.
- `Glob.GlobSyncImpl` takes the patterns already compiled (one list of alternatives per pattern) and returns the results only. The `matchers` it also returns in the source are its input.
- Abort signals, platform selection and `stat`/`withFileTypes` options are not implemented by the source, and are not modelled.

=== FILE: cache.dfy ===
/**
 * The walker's cache (`class Cache`, src/index.ts): memoised `lstat`
 * results and directory listings per path, and the "scheduled" set of
 * (path, pattern-suffix key) pairs.  The functions on plain maps state what
 * each method does to the class's fields; the lemmas state the caching
 * guarantees about them.
 */
module GlobCache {
  import opened Wrappers
  import opened Paths
  import opened FsOracle
  import opened Patterns

  type StatMap = map<Path, Option<Kind>>
  type ListingMap = map<Path, seq<Dirent>>
  type SeenMap = map<Path, set<string>>

  /** `statSync(p)` on a stat cache: the cache after the call and the answer. */
  function StatLookup(fs: FileSystem, stats: StatMap, p: Path): (StatMap, Option<Kind>) {
    if p in stats then (stats, stats[p])
    else var v := Lstat(fs, p); (stats[p := v], v)
  }

  /** `readdirSync(p)` on a listing cache: the cache after the call and the listing. */
  function ListingLookup(fs: FileSystem, listings: ListingMap, p: Path): (ListingMap, seq<Dirent>) {
    if p in listings then (listings, listings[p])
    else var v := Readdir(fs, p).GetOr([]); (listings[p := v], v)
  }

  /** The keys `add(p, keys, indexes)` inserts. */
  function KeysOf(keys: seq<string>, indexes: seq<nat>): (r: set<string>)
    ensures forall i :: i in indexes ==> JoinFrom(keys, i) in r
    decreases |indexes|
  {
    if indexes == [] then {}
    else KeysOf(keys, indexes[..|indexes| - 1]) + {JoinFrom(keys, indexes[|indexes| - 1])}
  }

  /** `add` inserts the keys of the given indexes and no other key. */
  lemma {:induction false} KeysOfExact(keys: seq<string>, indexes: seq<nat>)
    ensures KeysOf(keys, indexes) == set i | i in indexes :: JoinFrom(keys, i)
    decreases |indexes|
  {
    if indexes != [] {
      var init := indexes[..|indexes| - 1];
      var x := indexes[|indexes| - 1];
      KeysOfExact(keys, init);
      assert indexes == init + [x];
      forall k | k in KeysOf(keys, indexes)
        ensures exists i :: i in indexes && k == JoinFrom(keys, i)
      {
        if k == JoinFrom(keys, x) {
          assert x in indexes;
        } else {
          var i :| i in init && k == JoinFrom(keys, i);
          assert i in indexes;
        }
      }
    }
  }

  /** The seen-set after `add(p, keys, indexes)`. */
  function Marked(seen: SeenMap, p: Path, keys: seq<string>, indexes: seq<nat>): SeenMap {
    seen[p := (if p in seen then seen[p] else {}) + KeysOf(keys, indexes)]
  }

  /** `seen(p, keys, i)`: a missing path yields `undefined`, which is falsy. */
  predicate Scheduled(seen: SeenMap, p: Path, keys: seq<string>, i: nat) {
    p in seen && JoinFrom(keys, i) in seen[p]
  }

  /**
   * A second `statSync` of the same path changes nothing and repeats the
   * first answer, whatever the filesystem `later` says by then.
   */
  lemma StatMemoised(fs: FileSystem, later: FileSystem, stats: StatMap, p: Path)
    ensures var (s1, v1) := StatLookup(fs, stats, p);
            p in s1 && StatLookup(fs, s1, p) == (s1, v1) && StatLookup(later, s1, p) == (s1, v1)
  {
  }

  /** A first `statSync` asks the filesystem, and a failing `lstat` is stored as `null`. */
  lemma StatFirstCall(fs: FileSystem, stats: StatMap, p: Path)
    requires p !in stats
    ensures StatLookup(fs, stats, p).1 == Lstat(fs, p)
    ensures Lstat(fs, p).None? ==> StatLookup(fs, stats, p).0[p] == None
  {
  }

  /**
   * A failing `readdirSync` yields the empty list, and every later call
   * returns the identical list, whatever the filesystem `later` says by then.
   */
  lemma ListingMemoised(fs: FileSystem, later: FileSystem, listings: ListingMap, p: Path)
    ensures var (l1, v1) := ListingLookup(fs, listings, p);
            && (p !in listings && Readdir(fs, p).None? ==> v1 == [])
            && ListingLookup(fs, l1, p) == (l1, v1)
            && ListingLookup(later, l1, p) == (l1, v1)
  {
  }

  /** After `add(p, keys, indexes)`, every index added is seen at `p`. */
  lemma MarkedSeen(seen: SeenMap, p: Path, keys: seq<string>, indexes: seq<nat>, i: nat)
    requires i in indexes
    ensures Scheduled(Marked(seen, p, keys, indexes), p, keys, i)
  {
  }

  /** `add` only grows the seen-set: whatever was seen at any path is still seen. */
  lemma MarkedMonotone(seen: SeenMap, p: Path, keys: seq<string>, indexes: seq<nat>,
                       q: Path, keys': seq<string>, i: nat)
    requires Scheduled(seen, q, keys', i)
    ensures Scheduled(Marked(seen, p, keys, indexes), q, keys', i)
  {
  }

  /** `add` at `p` leaves every other path's entry as it was. */
  lemma MarkedElsewhere(seen: SeenMap, p: Path, keys: seq<string>, indexes: seq<nat>,
                        q: Path, keys': seq<string>, i: nat)
    requires q != p
    ensures Scheduled(Marked(seen, p, keys, indexes), q, keys', i) == Scheduled(seen, q, keys', i)
  {
  }

  /** The memoising cache of one walk. */
  class Cache {
    const fs: FileSystem
    var seen: SeenMap
    var stats: StatMap
    var listings: ListingMap

    constructor (fs: FileSystem)
      ensures this.fs == fs && seen == map[] && stats == map[] && listings == map[]
    {
      this.fs := fs;
      seen := map[];
      stats := map[];
      listings := map[];
    }

    /** `statSync(p)`: the stored value if there is one, else `lstat` (null on failure), which is stored. */
    method StatSync(p: Path) returns (s: Option<Kind>)
      modifies this`stats
      ensures p in old(stats) ==> s == old(stats)[p] && stats == old(stats)
      ensures p !in old(stats) ==> s == Lstat(fs, p) && stats == old(stats)[p := s]
      ensures (stats, s) == StatLookup(fs, old(stats), p)
    {
      if p in stats {
        return stats[p];
      }
      s := Lstat(fs, p);
      stats := stats[p := s];
    }

    /** `addToStatCache(p, entry)`: stores the entry's type under `p`, overwriting. */
    method AddToStatCache(p: Path, entry: Dirent)
      modifies this`stats
      ensures stats == old(stats)[p := Some(entry.kind)]
    {
      stats := stats[p := Some(entry.kind)];
    }

    /** `readdirSync(p)`: the stored listing if there is one, else the listing (empty on failure), which is stored. */
    method ReaddirSync(p: Path) returns (r: seq<Dirent>)
      modifies this`listings
      ensures p in old(listings) ==> r == old(listings)[p] && listings == old(listings)
      ensures p !in old(listings) ==> r == Readdir(fs, p).GetOr([]) && listings == old(listings)[p := r]
      ensures (listings, r) == ListingLookup(fs, old(listings), p)
    {
      if p in listings {
        return listings[p];
      }
      var v := Readdir(fs, p);
      r := if v.Some? then v.value else [];
      listings := listings[p := r];
    }

    /** `#cacheKey(keys, index)`: builds the key token by token. */
    method CacheKey(keys: seq<string>, index: nat) returns (key: string)
      ensures key == JoinFrom(keys, index)
    {
      key := "";
      var i := index;
      while i < |keys|
        invariant index <= i
        invariant i <= |keys| || i == index
        invariant i < |keys| ==> key + JoinFrom(keys, i) == JoinFrom(keys, index)
        invariant i >= |keys| ==> key == JoinFrom(keys, index)
        decreases |keys| - i
      {
        key := key + keys[i];
        if i != |keys| - 1 {
          key := key + "/";
        }
        i := i + 1;
      }
    }

    /** `add(p, keys, indexes)`: inserts the key of every index into `p`'s set, creating it first if needed. */
    method Add(p: Path, keys: seq<string>, indexes: seq<nat>)
      modifies this`seen
      ensures seen == Marked(old(seen), p, keys, indexes)
    {
      if p !in seen {
        seen := seen[p := {}];
      }
      ghost var base := if p in old(seen) then old(seen)[p] else {};
      var k := 0;
      assert KeysOf(keys, indexes[..0]) == {};
      assert seen == old(seen)[p := base];
      assert base + KeysOf(keys, indexes[..0]) == base;
      while k < |indexes|
        invariant 0 <= k <= |indexes|
        invariant seen == old(seen)[p := base + KeysOf(keys, indexes[..k])]
      {
        var key := CacheKey(keys, indexes[k]);
        assert KeysOf(keys, indexes[..k + 1]) == KeysOf(keys, indexes[..k]) + {key} by {
          assert indexes[..k + 1][..k] == indexes[..k];
        }
        seen := seen[p := seen[p] + {key}];
        assert seen[p] == base + KeysOf(keys, indexes[..k + 1]);
        k := k + 1;
      }
      assert indexes[..k] == indexes;
    }

    /** `seen(p, keys, index)`. */
    method Seen(p: Path, keys: seq<string>, index: nat) returns (b: bool)
      ensures b == Scheduled(seen, p, keys, index)
    {
      if p !in seen {
        return false;
      }
      var key := CacheKey(keys, index);
      b := key in seen[p];
    }
  }
}

=== FILE: filesystem.dfy ===
/**
 * The filesystem snapshot the walk runs against.  `lstat` and `readdir`
 * are read from an immutable map from absolute, normalised segment lists
 * to nodes; the snapshot does not change during one walk.
 */
module FsOracle {
  import opened Wrappers
  import opened Paths

  /** What `isDirectory()` / `isSymbolicLink()` report; `Other` is any other entry. */
  datatype Kind = Other | Directory | SymbolicLink

  /** A `Dirent` from `readdirSync(path, { withFileTypes: true })`. */
  datatype Dirent = Dirent(name: string, kind: Kind)

  /**
   * One entry of the snapshot: its own kind (as `lstat` sees it, without
   * following a final symbolic link) and what listing it yields, which is
   * `None` when reading it as a directory fails.
   */
  datatype Node = Node(kind: Kind, listing: Option<seq<Dirent>>)

  /** The process's working directory and the entries that exist. */
  datatype FileSystem = FileSystem(cwd: seq<string>, nodes: map<seq<string>, Node>)

  /** `lstatSync(p)`: `None` when it throws. Relative paths resolve against the process's working directory. */
  function Lstat(fs: FileSystem, p: Path): Option<Kind> {
    var a := AbsSegs(fs.cwd, p);
    if a in fs.nodes then Some(fs.nodes[a].kind) else None
  }

  /** `readdirSync(p, { withFileTypes: true })`: `None` when it throws. */
  function Readdir(fs: FileSystem, p: Path): Option<seq<Dirent>> {
    var a := AbsSegs(fs.cwd, p);
    if a in fs.nodes then fs.nodes[a].listing else None
  }
}

=== FILE: glob.dfy ===
/**
 * The walk as the source runs it: a `while` loop that pops units off the
 * queue, consults the `Cache` object and pushes new units, with the loop
 * over a directory's children and the `forEach` over the frontier inside.
 * Each method is proved to compute the functions of module Walker.
 */
module Glob {
  import opened Wrappers
  import opened Paths
  import opened FsOracle
  import opened Patterns
  import opened GlobCache
  import opened Walker

  /** The options the walk reads: `cwd` (default ".") and `exclude`. */
  datatype Options = Options(cwd: Option<Path>, exclude: Option<string -> bool>)

  /** `indexes.forEach(...)` for one child: what it adds to the accumulators, or the `TypeError` it throws. */
  method ExpandIndexes(cache: Cache, pat: Pattern, u: Unit, entry: Dirent, entryPath: Path, a0: Acc)
    returns (r: Result<Acc, Error>)
    ensures r == FoldIndexes(pat.segs, pat.keys, cache.seen, u, entry, entryPath, u.indexes, a0)
  {
    var a := a0;
    var k := 0;
    while k < |u.indexes|
      invariant 0 <= k <= |u.indexes|
      invariant FoldIndexes(pat.segs, pat.keys, cache.seen, u, entry, entryPath, u.indexes, a0)
             == FoldIndexes(pat.segs, pat.keys, cache.seen, u, entry, entryPath, u.indexes[k..], a)
    {
      var index := u.indexes[k];
      assert u.indexes[k..][0] == index && u.indexes[k..][1..] == u.indexes[k + 1..];
      var seenHere := cache.Seen(entryPath, pat.keys, index);
      var seenNext := cache.Seen(entryPath, pat.keys, index + 1);
      if !(seenHere || seenNext) {
        var step := IndexBody(pat.segs, pat.keys, cache.seen, u, entry, entryPath, index, a);
        if step.Fail? {
          return step;
        }
        a := step.value;
      }
      k := k + 1;
    }
    r := Ok(a);
  }

  /** The loop over the children of `u.path` (lines 157-261): results and queue after it, or the `TypeError`. */
  method ExpandChildren(cache: Cache, pat: Pattern, exclude: Option<string -> bool>, u: Unit,
                        children: seq<Dirent>, results0: seq<Path>, queue0: seq<Unit>)
    returns (r: Result<(seq<Path>, seq<Unit>), Error>)
    requires |u.indexes| > 0
    modifies cache`stats
    ensures var f := FoldChildren(pat, exclude, cache.seen, u, children, Walk(old(cache.stats), results0, queue0));
            && r.Ok? == f.Ok?
            && (r.Ok? ==> f.value == Walk(cache.stats, r.value.0, r.value.1))
            && (r.Fail? ==> r.error == f.error)
  {
    var results, queue := results0, queue0;
    var i := 0;
    while i < |children|
      invariant 0 <= i <= |children|
      invariant FoldChildren(pat, exclude, cache.seen, u, children, Walk(old(cache.stats), results0, queue0))
             == FoldChildren(pat, exclude, cache.seen, u, children[i..], Walk(cache.stats, results, queue))
    {
      var entry := children[i];
      assert children[i..][0] == entry && children[i..][1..] == children[i + 1..];
      if !Skipped(exclude, entry.name) {
        var entryPath := Join(u.path, entry.name);
        cache.AddToStatCache(entryPath, entry);
        var res := ExpandIndexes(cache, pat, u, entry, entryPath, Acc([], [], results, queue));
        if res.Fail? {
          return Fail(res.error);
        }
        var a := res.value;
        results, queue := a.results, a.queue;
        if |a.sub| > 0 {
          queue := queue + [Unit(u.pid, a.sub, a.nsym, entryPath)];
        }
      }
      i := i + 1;
    }
    r := Ok((results, queue));
  }

  /** The context the walk of `matchers` under `options` runs in. */
  function ContextOf(matchers: seq<seq<Pattern>>, options: Options, fs: FileSystem): Ctx {
    Ctx(Flatten(matchers), options.cwd.GetOr(Dot), fs, options.exclude)
  }

  /**
   * Lines 139-150: adds the last-segment result, probing the filesystem for a
   * literal.  The imperative rendering of `Walker.EmitLast`: the same block,
   * with the probe going through the `Cache` object's `StatSync`.
   */
  method EmitLastSegment(cache: Cache, ctx: Ctx, segs: seq<Segment>, u: Unit, fullpath: Path,
                         stat: Option<Kind>, isLast: bool, results0: seq<Path>)
    returns (results: seq<Path>)
    requires |segs| >= 1 && cache.fs == ctx.fs
    modifies cache`stats
    ensures (cache.stats, results) == EmitLast(ctx, segs, u, fullpath, stat, isLast, old(cache.stats), results0)
  {
    results := results0;
    var last := |segs| - 1;
    if isLast && segs[last].Lit? {
      var target := Resolve(ctx.fs.cwd, fullpath, Path(false, [segs[last].text]));
      var found := cache.StatSync(target);
      if found.Some? && (segs[last].text != "" || found.value == Directory || found.value == SymbolicLink) {
        results := Insert(results, Relative(ctx.fs.cwd, ctx.root, target));
      }
    } else if isLast && segs[last].Globstar? && (u.path != Dot || IsLit(segs, 0, ".") || (|segs| == 1 && stat.Some?)) {
      results := Insert(results, u.path);
    }
  }

  /** The body of the `while` loop for the popped unit `u`: the queue and results after it, or the `TypeError`. */
  method ExpandUnit(cache: Cache, ctx: Ctx, u: Unit, queue0: seq<Unit>, results0: seq<Path>)
    returns (r: Result<(seq<Unit>, seq<Path>), Error>)
    requires ValidCtx(ctx) && ValidUnit(ctx, u) && ValidQueue(ctx, queue0) && cache.fs == ctx.fs
    modifies cache`seen, cache`stats, cache`listings
    ensures var f := StepUnit(ctx, u, queue0, results0, old(cache.seen), old(cache.stats), old(cache.listings));
            && r.Ok? == f.Ok?
            && (r.Ok? ==> f.value == State(r.value.0, r.value.1, cache.seen, cache.stats, cache.listings))
            && (r.Fail? ==> r.error == f.error)
  {
    var pat := ctx.pats[u.pid];
    cache.Add(u.path, pat.keys, u.indexes);
    var fullpath := Resolve(ctx.fs.cwd, ctx.root, u.path);
    var stat := cache.StatSync(fullpath);
    var isDir := IsDirectory(stat, u);
    var isLast := IsLast(pat.segs, isDir, u);
    var redirect := Redirect(ctx, pat.segs, u, fullpath);
    if redirect.Some? {
      return Ok((queue0 + [redirect.value], results0));
    }
    var results := EmitLastSegment(cache, ctx, pat.segs, u, fullpath, stat, isLast, results0);
    if !isDir {
      return Ok((queue0, results));
    }
    var children := cache.ReaddirSync(fullpath);
    var res := ExpandChildren(cache, pat, ctx.exclude, u, children, results, queue0);
    if res.Fail? {
      return Fail(res.error);
    }
    r := Ok((res.value.1, res.value.0));
  }

  /**
   * One iteration of the `while` loop: pops the top unit and expands it.
   * The walk from the state after it, with one iteration less, has the
   * outcome `expected` that the walk from the state before it has.
   */
  method Iterate(cache: Cache, ctx: Ctx, queue0: seq<Unit>, results0: seq<Path>,
                 ghost expected: Outcome, ghost fuel: nat, ghost fuelNext: nat)
    returns (r: Result<(seq<Unit>, seq<Path>), Error>)
    requires ValidCtx(ctx) && ValidQueue(ctx, queue0) && |queue0| > 0 && cache.fs == ctx.fs
    requires fuel == fuelNext + 1
    requires expected == Run(ctx, State(queue0, results0, cache.seen, cache.stats, cache.listings), fuel)
    modifies cache`seen, cache`stats, cache`listings
    ensures r.Ok? ==> ValidQueue(ctx, r.value.0)
    ensures r.Ok? ==> expected == Run(ctx, State(r.value.0, r.value.1, cache.seen, cache.stats, cache.listings), fuelNext)
    ensures r.Fail? ==> expected == Crashed(r.error)
  {
    ghost var st := State(queue0, results0, cache.seen, cache.stats, cache.listings);
    var u := queue0[|queue0| - 1];
    var rest := queue0[..|queue0| - 1];
    assert Step(ctx, st) == StepUnit(ctx, u, rest, results0, st.seen, st.stats, st.listings);
    r := ExpandUnit(cache, ctx, u, rest, results0);
    if r.Ok? {
      ghost var next := State(r.value.0, r.value.1, cache.seen, cache.stats, cache.listings);
      assert Step(ctx, st) == Ok(next);
      RunSameFuel(ctx, st, fuel, fuelNext + 1);
      RunAfterStep(ctx, st, next, fuelNext);
    }
  }

  /**
   * `globSyncImpl(patterns, options)`, given the compiled alternatives of
   * each pattern: the work-queue loop, run for at most `fuel` iterations.
   */
  method GlobSyncImpl(matchers: seq<seq<Pattern>>, options: Options, fs: FileSystem, fuel: nat)
    returns (out: Outcome)
    requires ValidCtx(ContextOf(matchers, options, fs))
    ensures out == Run(ContextOf(matchers, options, fs), Init(|Flatten(matchers)|), fuel)
  {
    var ctx := ContextOf(matchers, options, fs);
    var results: seq<Path> := [];
    var queue := Seeds(|ctx.pats|);
    var cache := new Cache(fs);
    var fuelLeft := fuel;
    ghost var expected := Run(ctx, Init(|ctx.pats|), fuel);
    while |queue| > 0
      invariant ValidQueue(ctx, queue) && cache.fs == ctx.fs
      invariant expected == Run(ctx, State(queue, results, cache.seen, cache.stats, cache.listings), fuelLeft)
      decreases fuelLeft
    {
      if fuelLeft == 0 {
        return OutOfFuel;
      }
      ghost var fuelNow := fuelLeft;
      fuelLeft := fuelLeft - 1;
      var r := Iterate(cache, ctx, queue, results, expected, fuelNow, fuelLeft);
      if r.Fail? {
        return Crashed(r.error);
      }
      queue, results := r.value.0, r.value.1;
    }
    out := Finished(results);
  }

  /** `glob(pattern, options)`: the walk of one pattern's compiled alternatives; its result array is the result set in insertion order. */
  method GlobOne(alternatives: seq<Pattern>, options: Options, fs: FileSystem, fuel: nat)
    returns (out: Outcome)
    requires forall k :: 0 <= k < |alternatives| ==> WellFormed(alternatives[k])
    ensures out == Run(Ctx(alternatives, options.cwd.GetOr(Dot), fs, options.exclude), Init(|alternatives|), fuel)
  {
    assert Flatten([alternatives]) == alternatives + Flatten([]);
    assert Flatten([alternatives]) == alternatives;
    out := GlobSyncImpl([alternatives], options, fs, fuel);
  }
}

=== FILE: paths.dfy ===
/**
 * Paths as Node's `path` module sees them on a POSIX system: a flag for a
 * leading `/` and the list of `/`-separated segments.  The string "." is
 * the relative path with no segments and "/" the absolute one.
 *
 * `join`, `resolve` and `relative` are modelled on segments: empty and "."
 * segments vanish, ".." removes the segment before it, and ".." above "/"
 * stays at "/".  Each string the source builds has one Path value, but
 * distinct strings may share one: "" (an empty `relative`) and "." are both
 * the relative path with no segments.
 */
module Paths {

  datatype Path = Path(absolute: bool, segs: seq<string>)

  /** The path ".". */
  const Dot := Path(false, [])

  /** The path "/". */
  const RootDir := Path(true, [])

  /** A segment that normalisation leaves alone. */
  predicate Plain(x: string) {
    x != "" && x != "." && x != ".."
  }

  predicate AllPlain(s: seq<string>) {
    forall k :: 0 <= k < |s| ==> Plain(s[k])
  }

  /** Appends one segment to an already normalised segment list. */
  function PushSeg(absolute: bool, acc: seq<string>, x: string): seq<string> {
    if x == "" || x == "." then acc
    else if x == ".." then
      if |acc| > 0 && acc[|acc| - 1] != ".." then acc[..|acc| - 1]
      else if absolute then acc
      else acc + [".."]
    else acc + [x]
  }

  function NormFold(absolute: bool, acc: seq<string>, s: seq<string>): seq<string>
    decreases |s|
  {
    if s == [] then acc else NormFold(absolute, PushSeg(absolute, acc, s[0]), s[1..])
  }

  /** `path.normalize` on segments. */
  function Normalize(absolute: bool, s: seq<string>): seq<string> {
    NormFold(absolute, [], s)
  }

  /** `path.join(p, name)`. */
  function Join(p: Path, name: string): Path {
    Path(p.absolute, Normalize(p.absolute, p.segs + [name]))
  }

  /** The absolute, normalised segments of `p`, with `cwd` the process's working directory. */
  function AbsSegs(cwd: seq<string>, p: Path): seq<string> {
    if p.absolute then Normalize(true, p.segs) else Normalize(true, cwd + p.segs)
  }

  /** `path.resolve(base, p)`. */
  function Resolve(cwd: seq<string>, base: Path, p: Path): Path {
    if p.absolute then Path(true, Normalize(true, p.segs))
    else Path(true, Normalize(true, AbsSegs(cwd, base) + p.segs))
  }

  function CommonPrefixLen(a: seq<string>, b: seq<string>): (k: nat)
    ensures k <= |a| && k <= |b| && a[..k] == b[..k]
  {
    if a == [] || b == [] || a[0] != b[0] then 0
    else
      var k := 1 + CommonPrefixLen(a[1..], b[1..]);
      assert a[..k] == [a[0]] + a[1..][..k - 1];
      assert b[..k] == [b[0]] + b[1..][..k - 1];
      k
  }

  function Ups(n: nat): seq<string> {
    if n == 0 then [] else [".."] + Ups(n - 1)
  }

  /** `path.relative(from, to)`; Node's "" (same directory) is the path ".". */
  function Relative(cwd: seq<string>, from: Path, to: Path): Path {
    var f := AbsSegs(cwd, from);
    var t := AbsSegs(cwd, to);
    var k := CommonPrefixLen(f, t);
    Path(false, Ups(|f| - k) + t[k..])
  }

  /** Normalising `s` then `t` is normalising `s + t`. */
  lemma {:induction false} NormFoldAppend(absolute: bool, acc: seq<string>, s: seq<string>, t: seq<string>)
    ensures NormFold(absolute, acc, s + t) == NormFold(absolute, NormFold(absolute, acc, s), t)
    decreases |s|
  {
    if s == [] {
      assert s + t == t;
    } else {
      assert (s + t)[0] == s[0];
      assert (s + t)[1..] == s[1..] + t;
      NormFoldAppend(absolute, PushSeg(absolute, acc, s[0]), s[1..], t);
    }
  }

  /** Plain segments are appended unchanged. */
  lemma {:induction false} NormFoldPlain(absolute: bool, acc: seq<string>, t: seq<string>)
    requires AllPlain(t)
    ensures NormFold(absolute, acc, t) == acc + t
    decreases |t|
  {
    if t != [] {
      NormFoldPlain(absolute, acc + [t[0]], t[1..]);
      assert acc + [t[0]] + t[1..] == acc + t;
    }
  }

  /** An absolute path normalises to plain segments only. */
  lemma {:induction false} NormFoldAbsolutePlain(acc: seq<string>, s: seq<string>)
    requires AllPlain(acc)
    ensures AllPlain(NormFold(true, acc, s))
    decreases |s|
  {
    if s != [] {
      NormFoldAbsolutePlain(PushSeg(true, acc, s[0]), s[1..]);
    }
  }

  lemma CommonPrefixOfExtension(f: seq<string>, q: seq<string>)
    ensures CommonPrefixLen(f, f + q) == |f|
  {
    if f != [] {
      assert (f + q)[1..] == f[1..] + q;
      CommonPrefixOfExtension(f[1..], q);
    }
  }

  /**
   * `relative(root, resolve(root, p))` gives back `p` for a normalised
   * relative path that does not climb with "..": the walker's relative
   * results name the entry they were resolved from.
   */
  lemma {:induction false} RelativeResolve(cwd: seq<string>, root: Path, q: seq<string>)
    requires AllPlain(q)
    ensures Relative(cwd, root, Resolve(cwd, root, Path(false, q))) == Path(false, q)
  {
    var f := AbsSegs(cwd, root);
    NormFoldAbsolutePlain([], if root.absolute then root.segs else cwd + root.segs);
    assert AllPlain(f);
    NormFoldPlain(true, [], f);
    assert [] + f == f;
    NormFoldAppend(true, [], f, q);
    NormFoldPlain(true, f, q);
    var t := f + q;
    assert Normalize(true, f + q) == t;
    NormFoldAbsolutePlain([], t);
    NormFoldPlain(true, [], t);
    assert AbsSegs(cwd, Path(true, t)) == t;
    CommonPrefixOfExtension(f, q);
    assert t[|f|..] == q;
  }

  /**
   * The literal result: resolving a plain name below a plain relative unit
   * path and making it relative to the root again is `join(path, name)`.
   */
  lemma {:induction false} LiteralResultIsJoin(cwd: seq<string>, root: Path, p: seq<string>, name: string)
    requires AllPlain(p) && Plain(name)
    ensures Relative(cwd, root, Resolve(cwd, Resolve(cwd, root, Path(false, p)), Path(false, [name])))
         == Join(Path(false, p), name)
  {
    ResolveBelow(cwd, root, p, name);
    assert AllPlain(p + [name]);
    RelativeResolve(cwd, root, p + [name]);
    NormFoldPlain(false, [], p + [name]);
  }

  /** Resolving a plain name below a resolved plain relative path resolves the longer path. */
  lemma {:induction false} ResolveBelow(cwd: seq<string>, root: Path, p: seq<string>, name: string)
    requires AllPlain(p) && Plain(name)
    ensures Resolve(cwd, Resolve(cwd, root, Path(false, p)), Path(false, [name]))
         == Resolve(cwd, root, Path(false, p + [name]))
  {
    var f := AbsSegs(cwd, root);
    ResolvePlain(cwd, root, p);
    var full := Resolve(cwd, root, Path(false, p));
    assert AllPlain(f + p);
    NormFoldPlain(true, [], f + p);
    assert [] + (f + p) == f + p;
    assert AbsSegs(cwd, full) == f + p;
    NormFoldPlain(true, [], f + p + [name]);
    assert [] + (f + p + [name]) == f + p + [name];
    assert f + p + [name] == f + (p + [name]);
    assert AllPlain(p + [name]);
    ResolvePlain(cwd, root, p + [name]);
  }

  /** Resolving a plain relative path appends it to the normalised base. */
  lemma ResolvePlain(cwd: seq<string>, root: Path, p: seq<string>)
    requires AllPlain(p)
    ensures AllPlain(AbsSegs(cwd, root))
    ensures Resolve(cwd, root, Path(false, p)) == Path(true, AbsSegs(cwd, root) + p)
  {
    var f := AbsSegs(cwd, root);
    NormFoldAbsolutePlain([], if root.absolute then root.segs else cwd + root.segs);
    NormFoldAppend(true, [], f, p);
    NormFoldPlain(true, [], f);
    assert [] + f == f;
    NormFoldPlain(true, f, p);
  }
}

=== FILE: patterns.dfy ===
/**
 * Compiled patterns as the walker receives them from the pattern compiler,
 * the segment test `testPattern`, and the scheduling key built from a
 * pattern's raw tokens.
 */
module Patterns {
  import opened Wrappers

  /**
   * One compiled segment: the recursive wildcard `**`, a literal string
   * (including the special literals "", "." and ".."), or a compiled
   * regular expression, kept as the opaque predicate its `test` computes.
   */
  datatype Segment = Globstar | Lit(text: string) | Re(test: string -> bool)

  /**
   * One alternative of a compiled pattern: its segments (`matcher.set[i]`)
   * and its raw tokens (`matcher.globParts[i]`), used only for cache keys.
   */
  datatype Pattern = Pattern(segs: seq<Segment>, keys: seq<string>)

  /** The compiler never produces an empty segment list. */
  predicate WellFormed(p: Pattern) {
    |p.segs| >= 1
  }

  /** `pattern[i]`, which is `undefined` past the end. */
  function At(segs: seq<Segment>, i: int): Option<Segment> {
    if 0 <= i < |segs| then Some(segs[i]) else None
  }

  /** `pattern[i] === text`. */
  predicate IsLit(segs: seq<Segment>, i: int, text: string) {
    0 <= i < |segs| && segs[i].Lit? && segs[i].text == text
  }

  /** `pattern[i] === GLOBSTAR`. */
  predicate IsGlobstar(segs: seq<Segment>, i: int) {
    0 <= i < |segs| && segs[i].Globstar?
  }

  /** `testPattern(pattern, name)` for a defined segment. */
  function TestPattern(seg: Segment, name: string): bool {
    match seg
    case Globstar => true
    case Lit(text) => text == name
    case Re(test) => test(name)
  }

  /**
   * `**` matches every name, a literal exactly the one name equal to it, and
   * a regular expression the names its `test` accepts.
   */
  lemma TestPatternCases(seg: Segment, name: string, other: string)
    ensures seg.Globstar? ==> TestPattern(seg, name)
    ensures seg.Lit? ==> (TestPattern(seg, name) <==> name == seg.text)
    ensures seg.Lit? && TestPattern(seg, name) && TestPattern(seg, other) ==> name == other
    ensures seg.Re? ==> (TestPattern(seg, name) <==> seg.test(name))
  {
  }

  /** The tokens `keys[i..]` joined with "/" separators, "" when none are left. */
  function JoinFrom(keys: seq<string>, i: nat): string
    decreases |keys| - i
  {
    if i >= |keys| then ""
    else if i == |keys| - 1 then keys[i]
    else keys[i] + "/" + JoinFrom(keys, i + 1)
  }

  /** Splitting a string at every "/". */
  function Split(s: string): (r: seq<string>)
    ensures |r| >= 1
  {
    if s == [] then [""]
    else if s[0] == '/' then [""] + Split(s[1..])
    else var rest := Split(s[1..]); [[s[0]] + rest[0]] + rest[1..]
  }

  predicate NoSlash(t: string) {
    '/' !in t
  }

  lemma {:induction false} SplitNoSlash(a: string)
    requires NoSlash(a)
    ensures Split(a) == [a]
  {
    if a != [] {
      SplitNoSlash(a[1..]);
      assert [a[0]] + a[1..] == a;
    }
  }

  lemma {:induction false} SplitFirst(a: string, b: string)
    requires NoSlash(a)
    ensures Split(a + "/" + b) == [a] + Split(b)
  {
    if a == [] {
      assert a + "/" + b == "/" + b;
      assert ("/" + b)[1..] == b;
    } else {
      assert (a + "/" + b)[1..] == a[1..] + "/" + b;
      SplitFirst(a[1..], b);
      assert [a[0]] + a[1..] == a;
    }
  }

  /** When no token contains "/", the key determines the remaining tokens: splitting it gives `keys[i..]` back. */
  lemma {:induction false} SplitJoinFrom(keys: seq<string>, i: nat)
    requires forall k :: 0 <= k < |keys| ==> NoSlash(keys[k])
    requires i < |keys|
    ensures Split(JoinFrom(keys, i)) == keys[i..]
    decreases |keys| - i
  {
    if i == |keys| - 1 {
      SplitNoSlash(keys[i]);
    } else {
      SplitJoinFrom(keys, i + 1);
      SplitFirst(keys[i], JoinFrom(keys, i + 1));
      assert keys[i..] == [keys[i]] + keys[i + 1..];
    }
  }

  /**
   * Two indexes of the same pattern get the same key exactly when the
   * token suffixes from them are equal (tokens free of "/"): one entry
   * of the seen-set stands for one remaining pattern suffix.
   */
  lemma KeyIdentifiesSuffix(keys: seq<string>, i: nat, j: nat)
    requires forall k :: 0 <= k < |keys| ==> NoSlash(keys[k])
    requires i < |keys| && j < |keys|
    ensures JoinFrom(keys, i) == JoinFrom(keys, j) <==> keys[i..] == keys[j..]
  {
    SplitJoinFrom(keys, i);
    SplitJoinFrom(keys, j);
    if keys[i..] == keys[j..] {
      JoinFromSuffix(keys, i, j);
    }
  }

  /** The key only depends on the token suffix. */
  lemma {:induction false} JoinFromSuffix(keys: seq<string>, i: nat, j: nat)
    requires i <= |keys| && j <= |keys| && keys[i..] == keys[j..]
    ensures JoinFrom(keys, i) == JoinFrom(keys, j)
    decreases |keys| - i
  {
    if i < |keys| {
      assert keys[i] == keys[i..][0] == keys[j..][0] == keys[j];
      assert |keys| - i == |keys| - j;
      if i < |keys| - 1 {
        assert keys[i + 1..] == keys[i..][1..] == keys[j..][1..] == keys[j + 1..];
        JoinFromSuffix(keys, i + 1, j + 1);
      }
    }
  }

  /** The key of an index past the end is empty; otherwise it ends with the last token (no trailing separator is added). */
  lemma {:induction false} JoinFromShape(keys: seq<string>, i: nat)
    ensures i >= |keys| ==> JoinFrom(keys, i) == ""
    ensures i < |keys| ==>
              && |JoinFrom(keys, i)| >= |keys[|keys| - 1]|
              && JoinFrom(keys, i)[|JoinFrom(keys, i)| - |keys[|keys| - 1]|..] == keys[|keys| - 1]
    decreases |keys| - i
  {
    if i < |keys| - 1 {
      JoinFromShape(keys, i + 1);
      var rest := JoinFrom(keys, i + 1);
      var last := keys[|keys| - 1];
      var whole := keys[i] + "/" + rest;
      assert whole[|whole| - |last|..] == rest[|rest| - |last|..];
    }
  }
}

=== FILE: scenarios.dfy ===
/**
 * Whole walks on small filesystem snapshots, followed pop by pop.  The
 * process's working directory is "/", which holds a directory `a` with a
 * file `b`, and a file `c`.
 */
module Scenarios {
  import opened Wrappers
  import opened Paths
  import opened FsOracle
  import opened Patterns
  import opened GlobCache
  import opened Walker
  import opened WalkerFacts

  /** What "/" lists. */
  const RootListing := [Dirent("a", Directory), Dirent("c", Other)]

  predicate Listed(name: string) {
    name == "a" || name == "c"
  }

  /**
   * A snapshot in which the process runs in "/", "/" is a directory that
   * lists a directory `a` and a file `c`, and `lstat` of "/name" succeeds
   * for exactly those two names.
   */
  ghost predicate Snapshot(fs: FileSystem) {
    && fs.cwd == []
    && Lstat(fs, RootDir) == Some(Directory)
    && Readdir(fs, RootDir) == Some(RootListing)
    && forall name :: Plain(name) ==> (Lstat(fs, Path(true, [name])).Some? <==> Listed(name))
  }

  /** One such snapshot, in which "/a" holds a file `b`. */
  const Tree := FileSystem([], map[
    [] := Node(Directory, Some(RootListing)),
    ["a"] := Node(Directory, Some([Dirent("b", Other)])),
    ["a", "b"] := Node(Other, None),
    ["c"] := Node(Other, None)])

  lemma TreeIsSnapshot()
    ensures Snapshot(Tree)
  {
    assert AbsSegs([], RootDir) == [];
    forall name | Plain(name)
      ensures Lstat(Tree, Path(true, [name])).Some? <==> Listed(name)
    {
      NormalizeOne(true, name);
      assert AbsSegs([], Path(true, [name])) == [name];
    }
  }

  /** The walk of one compiled pattern from the root ".". */
  function Walk1(fs: FileSystem, segs: seq<Segment>, keys: seq<string>): Ctx {
    Ctx([Pattern(segs, keys)], Dot, fs, None)
  }

  /** One plain segment normalises to itself. */
  lemma NormalizeOne(absolute: bool, x: string)
    requires Plain(x)
    ensures Normalize(absolute, [] + [x]) == [x] && Normalize(absolute, [x]) == [x]
  {
    assert [] + [x] == [x];
    NormFoldPlain(absolute, [], [x]);
  }

  /**
   * The probe of lines 139-145 for a unit at "/" whose last segment is the
   * literal `name`: `lstat` of "/name" is stored, and `name`, relative to the
   * root, is reported exactly when it succeeds.
   */
  lemma ProbeAtRoot(ctx: Ctx, segs: seq<Segment>, u: Unit, stat: Option<Kind>, stats: StatMap, name: string)
    requires ctx.fs.cwd == [] && ctx.root == Dot && Plain(name)
    requires |segs| >= 1 && segs[|segs| - 1] == Lit(name)
    requires Path(true, [name]) !in stats
    ensures var found := Lstat(ctx.fs, Path(true, [name]));
            EmitLast(ctx, segs, u, RootDir, stat, true, stats, [])
            == (stats[Path(true, [name]) := found], if found.Some? then [Path(false, [name])] else [])
  {
    NormalizeOne(true, name);
    var target := Resolve([], RootDir, Path(false, [name]));
    assert target == Path(true, [name]);
    assert AbsSegs([], Dot) == [] && AbsSegs([], target) == [name];
    assert CommonPrefixLen([], [name]) == 0;
    assert Relative([], Dot, target) == Path(false, [] + [name][0..]);
    assert [] + [name][0..] == [name];
    assert Insert([], Path(false, [name])) == [Path(false, [name])];
  }

  /**
   * `glob(name)` for one plain segment: `name` is the result exactly when
   * "/" lists it.  For a listed name the probe of the literal at line 141
   * finds it and the child loop finds it again; the set holds it once.
   */
  lemma LiteralAtRoot(fs: FileSystem, name: string)
    requires Snapshot(fs) && Plain(name)
    ensures Run(Walk1(fs, [Lit(name)], [name]), Init(1), 1)
            == Finished(if Listed(name) then [Path(false, [name])] else [])
  {
    var ctx := Walk1(fs, [Lit(name)], [name]);
    var st := Init(1);
    var u := Unit(0, [0], [], Dot);
    assert st.queue == [u];
    assert st.queue[..0] == [];
    PopAtDot(fs, name);
  }

  /** The only pop of that walk, at "." with frontier {0}. */
  lemma PopAtDot(fs: FileSystem, name: string)
    requires Snapshot(fs) && Plain(name)
    ensures var r := StepUnit(Walk1(fs, [Lit(name)], [name]), Unit(0, [0], [], Dot), [], [], map[], map[], map[]);
            r.Ok? && r.value.queue == [] && r.value.results == if Listed(name) then [Path(false, [name])] else []
  {
    var segs := [Lit(name)];
    var ctx := Walk1(fs, segs, [name]);
    var u := Unit(0, [0], [], Dot);
    var fullpath := Resolve([], Dot, Dot);
    assert fullpath == RootDir;
    var stats1 := map[RootDir := Some(Directory)];
    assert StatLookup(fs, map[], RootDir) == (stats1, Some(Directory));
    assert Redirect(ctx, segs, u, fullpath) == None;
    assert IsDirectory(Some(Directory), u);
    assert IsLast(segs, true, u);
    var target := Path(true, [name]);
    var stats2 := stats1[target := Lstat(fs, target)];
    ProbeAtRoot(ctx, segs, u, Some(Directory), stats1, name);
    assert ListingLookup(fs, map[], RootDir) == (map[RootDir := RootListing], RootListing);
    ChildrenAtDot(name, stats2);
  }

  /** The child loop of that pop: a child named `name` is reported again, which changes nothing. */
  lemma ChildrenAtDot(name: string, stats: StatMap)
    requires Plain(name)
    ensures var results := if Listed(name) then [Path(false, [name])] else [];
            var r := FoldChildren(Pattern([Lit(name)], [name]), None, Marked(map[], Dot, [name], [0]),
                                  Unit(0, [0], [], Dot), RootListing, Walk(stats, results, []));
            r.Ok? && r.value.queue == [] && r.value.results == results
  {
    var pat := Pattern([Lit(name)], [name]);
    var u := Unit(0, [0], [], Dot);
    var seen := Marked(map[], Dot, [name], [0]);
    var results := if Listed(name) then [Path(false, [name])] else [];
    ChildAtDot(name, RootListing[0], stats);
    var w1 := Walk(stats[Path(false, ["a"]) := Some(Directory)], results, []);
    ChildAtDot(name, RootListing[1], w1.stats);
    var w2 := Walk(w1.stats[Path(false, ["c"]) := Some(Other)], results, []);
    assert FoldChildren(pat, None, seen, u, RootListing[1..], w1) == Ok(w2);
  }

  /** One child of "/" under the pattern `name`: its kind is cached, and nothing is reported that was not already. */
  lemma ChildAtDot(name: string, entry: Dirent, stats: StatMap)
    requires Plain(name) && entry in RootListing
    ensures var results := if Listed(name) then [Path(false, [name])] else [];
            ChildStep(Pattern([Lit(name)], [name]), None, Marked(map[], Dot, [name], [0]),
                      Unit(0, [0], [], Dot), entry, Walk(stats, results, []))
            == Ok(Walk(stats[Path(false, [entry.name]) := Some(entry.kind)], results, []))
  {
    var segs := [Lit(name)];
    var u := Unit(0, [0], [], Dot);
    var seen := Marked(map[], Dot, [name], [0]);
    var results := if Listed(name) then [Path(false, [name])] else [];
    NormalizeOne(false, entry.name);
    var p := Path(false, [entry.name]);
    assert Join(Dot, entry.name) == p;
    assert !Redundant(seen, [name], p, 0);
    assert name == entry.name ==> Insert(results, p) == results;
    assert FoldIndexes(segs, [name], seen, u, entry, p, [0], Acc([], [], results, [])) == Ok(Acc([], [], results, []));
  }

  /**
   * `glob("/c")`: the first pop moves the unit to "/" (line 125); the second
   * reports `c` relative to the root from the probe (line 144) and `/c`
   * from the child loop (lines 162 and 234), so both forms are results.
   */
  lemma AbsolutePatternReportsBoth(fs: FileSystem)
    requires Snapshot(fs)
    ensures Run(Walk1(fs, [Lit(""), Lit("c")], ["", "c"]), Init(1), 2)
            == Finished([Path(false, ["c"]), Path(true, ["c"])])
  {
    var segs := [Lit(""), Lit("c")];
    var keys := ["", "c"];
    var ctx := Walk1(fs, segs, keys);
    var st := Init(1);
    var u0 := Unit(0, [0], [], Dot);
    assert st.queue == [u0];
    FirstSegmentRedirect(ctx, u0, [], [], map[], map[], map[]);
    var r1 := Step(ctx, st);
    var u := Unit(0, [1], [], RootDir);
    assert Resolve([], Dot, Dot) == RootDir;
    assert r1.Ok? && r1.value.queue == [u] && r1.value.results == [] && r1.value.listings == map[];
    assert r1.value.seen == Marked(map[], Dot, keys, [0]);
    assert r1.value.stats == map[RootDir := Some(Directory)];
    PopAtRoot(ctx, r1.value);
    assert Run(ctx, st, 2) == Run(ctx, r1.value, 1);
  }

  /** The second pop of `glob("/c")`, at "/" with frontier {1}. */
  lemma PopAtRoot(ctx: Ctx, st: State)
    requires Snapshot(ctx.fs) && ctx == Walk1(ctx.fs, [Lit(""), Lit("c")], ["", "c"])
    requires st.queue == [Unit(0, [1], [], RootDir)] && st.results == [] && st.listings == map[]
    requires st.seen == Marked(map[], Dot, ["", "c"], [0]) && st.stats == map[RootDir := Some(Directory)]
    ensures Run(ctx, st, 1) == Finished([Path(false, ["c"]), Path(true, ["c"])])
  {
    var fs := ctx.fs;
    var segs := [Lit(""), Lit("c")];
    var keys := ["", "c"];
    var u := Unit(0, [1], [], RootDir);
    var fullpath := Resolve([], Dot, RootDir);
    assert fullpath == RootDir;
    var stats1 := st.stats;
    var stat := Some(Directory);
    assert StatLookup(fs, st.stats, RootDir) == (stats1, stat);
    assert Redirect(ctx, segs, u, fullpath) == None;
    assert IsDirectory(Some(Directory), u);
    assert IsLast(segs, true, u);
    var target := Path(true, ["c"]);
    assert Lstat(fs, target).Some?;
    var stats2 := stats1[target := Lstat(fs, target)];
    ProbeAtRoot(ctx, segs, u, stat, stats1, "c");
    assert ListingLookup(fs, map[], RootDir) == (map[RootDir := RootListing], RootListing);
    ChildrenAtRoot(stats2);
    var r := Step(ctx, st);
    assert r.Ok? && r.value.queue == [] && r.value.results == [Path(false, ["c"]), Path(true, ["c"])];
  }

  /** The child loop of that pop: `a` does not match, and `/c` is reported. */
  lemma ChildrenAtRoot(stats: StatMap)
    ensures var keys := ["", "c"];
            var seen := Marked(Marked(map[], Dot, keys, [0]), RootDir, keys, [1]);
            var results := [Path(false, ["c"])];
            var r := FoldChildren(Pattern([Lit(""), Lit("c")], keys), None, seen, Unit(0, [1], [], RootDir),
                                  RootListing, Walk(stats, results, []));
            r.Ok? && r.value.queue == [] && r.value.results == [Path(false, ["c"]), Path(true, ["c"])]
  {
    var segs := [Lit(""), Lit("c")];
    var keys := ["", "c"];
    var pat := Pattern(segs, keys);
    var u := Unit(0, [1], [], RootDir);
    var seen := Marked(Marked(map[], Dot, keys, [0]), RootDir, keys, [1]);
    var results := [Path(false, ["c"])];
    var children := RootListing;
    NormalizeOne(true, "a");
    NormalizeOne(true, "c");
    var pa := Path(true, ["a"]);
    assert Join(RootDir, "a") == pa;
    assert !Redundant(seen, keys, pa, 1);
    var w1 := Walk(stats[pa := Some(Directory)], results, []);
    assert FoldIndexes(segs, keys, seen, u, children[0], pa, [1], Acc([], [], results, [])) == Ok(Acc([], [], results, []));
    assert ChildStep(pat, None, seen, u, children[0], Walk(stats, results, [])) == Ok(w1);
    var pc := Path(true, ["c"]);
    assert Join(RootDir, "c") == pc;
    assert !Redundant(seen, keys, pc, 1);
    var both := [Path(false, ["c"]), pc];
    assert Insert(results, pc) == both;
    var w2 := Walk(w1.stats[pc := Some(Other)], both, []);
    assert FoldIndexes(segs, keys, seen, u, children[1], pc, [1], Acc([], [], results, [])) == Ok(Acc([], [], both, []));
    assert ChildStep(pat, None, seen, u, children[1], w1) == Ok(w2);
    assert FoldChildren(pat, None, seen, u, children[1..], w1) == Ok(w2);
  }
}

=== FILE: walker.dfy ===
/**
 * The pattern-driven directory walk of `globSyncImpl` (src/index.ts), as
 * functions on values: one function per piece of the loop body, `Step` for
 * one pop of the work queue and `Run` for the whole loop.  The imperative
 * version in module Glob is proved to compute exactly these.
 *
 * JavaScript `Set`s iterate in insertion order; they are sequences without
 * duplicates here, grown with `Insert`.
 */
module Walker {
  import opened Wrappers
  import opened Paths
  import opened FsOracle
  import opened Patterns
  import opened GlobCache

  /** `testPattern(undefined, name)` reads `.test` of `undefined` and throws. */
  datatype Error = TypeError

  /** `set.add(x)`. */
  function Insert<T(==,!new)>(s: seq<T>, x: T): (r: seq<T>)
    ensures x in r && forall y :: y in r <==> y in s || y == x
  {
    if x in s then s else s + [x]
  }

  /**
   * A unit of work: which compiled pattern (its index `pid` in the walk's
   * pattern list), the frontier `indexes`, the frontier indexes reached
   * through a symbolic link, and the path relative to the root.
   */
  datatype Unit = Unit(pid: nat, indexes: seq<nat>, symlinks: seq<nat>, path: Path)

  /** What one walk works with: compiled patterns, root (`options.cwd`), filesystem, `options.exclude`. */
  datatype Ctx = Ctx(pats: seq<Pattern>, root: Path, fs: FileSystem, exclude: Option<string -> bool>)

  predicate ValidCtx(ctx: Ctx) {
    forall k :: 0 <= k < |ctx.pats| ==> WellFormed(ctx.pats[k])
  }

  /** A queued unit names an existing pattern and has a non-empty frontier. */
  predicate ValidUnit(ctx: Ctx, u: Unit) {
    u.pid < |ctx.pats| && |u.indexes| > 0
  }

  predicate ValidQueue(ctx: Ctx, q: seq<Unit>) {
    forall k :: 0 <= k < |q| ==> ValidUnit(ctx, q[k])
  }

  /** `after` is `before` with units of pattern `pid` and non-empty frontier pushed on top. */
  predicate Extends(before: seq<Unit>, after: seq<Unit>, pid: nat) {
    && |before| <= |after|
    && after[..|before|] == before
    && forall k :: |before| <= k < |after| ==> after[k].pid == pid && |after[k].indexes| > 0
  }

  lemma ExtendsTrans(a: seq<Unit>, b: seq<Unit>, c: seq<Unit>, pid: nat)
    requires Extends(a, b, pid) && Extends(b, c, pid)
    ensures Extends(a, c, pid)
  {
    assert c[..|a|] == c[..|b|][..|a|];
  }

  /** What the per-index step of one child adds to: `subPatterns`, `nSymlinks`, `results` and the queue. */
  datatype Acc = Acc(sub: seq<nat>, nsym: seq<nat>, results: seq<Path>, queue: seq<Unit>)

  function AddSub(a: Acc, i: nat): Acc { a.(sub := Insert(a.sub, i)) }
  function AddSym(a: Acc, i: nat): Acc { a.(nsym := Insert(a.nsym, i)) }
  function AddResult(a: Acc, p: Path): Acc { a.(results := Insert(a.results, p)) }
  function PushUnit(a: Acc, u: Unit): Acc { a.(queue := a.queue + [u]) }

  /** Lines 178-205, the first half of the `GLOBSTAR` branch: frontier indexes, results and symbolic-link marks for the child. */
  function GlobstarFrontier(segs: seq<Segment>, u: Unit, entry: Dirent, entryPath: Path, index: nat, a: Acc): (r: Acc)
    ensures r.queue == a.queue
  {
    var fromSymlink := index in u.symlinks;
    var nextMatches := At(segs, index + 1).Some? && TestPattern(At(segs, index + 1).value, entry.name);
    var a1 := GlobstarSelf(segs, entry, entryPath, index, fromSymlink, a);
    var a2 := GlobstarNext(segs, entryPath, index, nextMatches, a1);
    var a3 := GlobstarDescend(segs, entry, index, fromSymlink, nextMatches, a2);
    if entry.kind == SymbolicLink then AddSym(a3, index) else a3
  }

  /** Lines 178-184: `**` itself stays on the frontier of a directory, or yields the child when it is last. */
  function GlobstarSelf(segs: seq<Segment>, entry: Dirent, entryPath: Path, index: nat, fromSymlink: bool, a: Acc): Acc {
    if !fromSymlink && entry.kind == Directory then AddSub(a, index)
    else if !fromSymlink && index == |segs| - 1 then AddResult(a, entryPath)
    else a
  }

  /** Lines 188-197: a child matching the segment after `**` is a result, or moves the frontier two segments on. */
  function GlobstarNext(segs: seq<Segment>, entryPath: Path, index: nat, nextMatches: bool, a: Acc): Acc {
    if nextMatches && index + 1 == |segs| - 1 then AddResult(a, entryPath)
    else if nextMatches then AddSub(a, index + 2)
    else a
  }

  /** Lines 198-202: a directory or link that matches the next segment, or any under a pattern starting with ".", gets it on its frontier. */
  function GlobstarDescend(segs: seq<Segment>, entry: Dirent, index: nat, fromSymlink: bool, nextMatches: bool, a: Acc): Acc {
    if (nextMatches || IsLit(segs, 0, ".")) && (entry.kind == Directory || entry.kind == SymbolicLink) && !fromSymlink
    then AddSub(a, index + 1) else a
  }

  /** Lines 207-226, the second half: a pattern ending in `**` then "" reports `u.path`; `**` then ".." looks past the "..". */
  function GlobstarLookahead(segs: seq<Segment>, keys: seq<string>, seen: SeenMap, u: Unit,
                             entry: Dirent, index: nat, a: Acc): (r: Acc)
    ensures Extends(a.queue, r.queue, u.pid)
  {
    var last := |segs| - 1;
    var nextIndex := index + 1;
    if IsLit(segs, nextIndex, "") then AddResult(a, u.path)
    else if IsLit(segs, nextIndex, "..") && entry.kind == Directory then
      var parent := Join(u.path, "..");
      if nextIndex < last then
        var a1 := if !Scheduled(seen, u.path, keys, nextIndex + 1)
                  then PushUnit(a, Unit(u.pid, [nextIndex + 1], u.symlinks, u.path)) else a;
        if !Scheduled(seen, parent, keys, nextIndex + 1)
        then PushUnit(a1, Unit(u.pid, [nextIndex + 1], u.symlinks, parent)) else a1
      else AddResult(AddResult(a, parent), u.path)
    else a
  }

  /** The `GLOBSTAR` branch of the per-index step for a child `entry` of `u.path`. */
  function GlobstarStep(segs: seq<Segment>, keys: seq<string>, seen: SeenMap, u: Unit,
                        entry: Dirent, entryPath: Path, index: nat, a: Acc): (r: Acc)
    ensures Extends(a.queue, r.queue, u.pid)
  {
    GlobstarLookahead(segs, keys, seen, u, entry, index, GlobstarFrontier(segs, u, entry, entryPath, index, a))
  }

  /** The string-segment branch: a literal equal to the name, or "." followed by a segment that matches it. */
  function LiteralStep(segs: seq<Segment>, text: string, entry: Dirent, entryPath: Path,
                       index: nat, a: Acc): (r: Result<Acc, Error>)
    ensures r.Ok? ==> r.value.queue == a.queue
  {
    var last := |segs| - 1;
    var nextIndex := index + 1;
    if text == entry.name then
      Ok(if index == last then AddResult(a, entryPath) else AddSub(a, nextIndex))
    else if text == "." then
      var next := At(segs, nextIndex);
      if next.None? then Fail(TypeError)
      else if TestPattern(next.value, entry.name) then
        Ok(if nextIndex == last then AddResult(a, entryPath) else AddSub(a, nextIndex + 1))
      else Ok(a)
    else Ok(a)
  }

  /** The regular-expression branch, taken when the expression matches the name. */
  function RegexStep(segs: seq<Segment>, entry: Dirent, entryPath: Path, index: nat, a: Acc): (r: Acc)
    ensures r.queue == a.queue
  {
    if index == |segs| - 1 then AddResult(a, entryPath)
    else if entry.kind == Directory then AddSub(a, index + 1)
    else a
  }

  /** The redundancy guard of line 169: the child was already scheduled at `index` or `index + 1`. */
  predicate Redundant(seen: SeenMap, keys: seq<string>, entryPath: Path, index: nat) {
    Scheduled(seen, entryPath, keys, index) || Scheduled(seen, entryPath, keys, index + 1)
  }

  /** The body of `indexes.forEach` past the guard, branching on the kind of `pattern[index]`. */
  function IndexBody(segs: seq<Segment>, keys: seq<string>, seen: SeenMap, u: Unit,
                     entry: Dirent, entryPath: Path, index: nat, a: Acc): (r: Result<Acc, Error>)
    ensures r.Ok? ==> Extends(a.queue, r.value.queue, u.pid)
  {
    var current := At(segs, index);
    var a1 := if current.Some? && current.value.Globstar?
              then GlobstarStep(segs, keys, seen, u, entry, entryPath, index, a) else a;
    if current.Some? && current.value.Lit? then
      LiteralStep(segs, current.value.text, entry, entryPath, index, a1)
    else if current.Some? && current.value.Re? && current.value.test(entry.name) then
      Ok(RegexStep(segs, entry, entryPath, index, a1))
    else Ok(a1)
  }

  /** The body of `indexes.forEach` for one frontier index and one child. */
  function IndexStep(segs: seq<Segment>, keys: seq<string>, seen: SeenMap, u: Unit,
                     entry: Dirent, entryPath: Path, index: nat, a: Acc): (r: Result<Acc, Error>)
    ensures r.Ok? ==> Extends(a.queue, r.value.queue, u.pid)
  {
    if Redundant(seen, keys, entryPath, index) then Ok(a)
    else IndexBody(segs, keys, seen, u, entry, entryPath, index, a)
  }

  /** `indexes.forEach(...)` for one child, in the frontier's order; a throw ends it. */
  function FoldIndexes(segs: seq<Segment>, keys: seq<string>, seen: SeenMap, u: Unit,
                       entry: Dirent, entryPath: Path, idxs: seq<nat>, a: Acc): (r: Result<Acc, Error>)
    ensures r.Ok? ==> Extends(a.queue, r.value.queue, u.pid)
    decreases |idxs|
  {
    if idxs == [] then Ok(a)
    else
      match IndexStep(segs, keys, seen, u, entry, entryPath, idxs[0], a)
      case Fail(e) => Fail(e)
      case Ok(a') =>
        var r := FoldIndexes(segs, keys, seen, u, entry, entryPath, idxs[1..], a');
        if r.Ok? then ExtendsTrans(a.queue, a'.queue, r.value.queue, u.pid); r else r
  }

  /** `name[0] === '.' || (exclude && exclude(name))`. */
  predicate Skipped(exclude: Option<string -> bool>, name: string) {
    (|name| > 0 && name[0] == '.') || (exclude.Some? && exclude.value(name))
  }

  /** The part of the walk's state the child loop changes. */
  datatype Walk = Walk(stats: StatMap, results: seq<Path>, queue: seq<Unit>)

  /** One iteration of the loop over the children of `u.path`. */
  function ChildStep(pat: Pattern, exclude: Option<string -> bool>, seen: SeenMap, u: Unit,
                     entry: Dirent, w: Walk): (r: Result<Walk, Error>)
    requires |u.indexes| > 0
    ensures r.Ok? ==> Extends(w.queue, r.value.queue, u.pid)
  {
    if Skipped(exclude, entry.name) then Ok(w)
    else
      var entryPath := Join(u.path, entry.name);
      var stats := w.stats[entryPath := Some(entry.kind)];
      match FoldIndexes(pat.segs, pat.keys, seen, u, entry, entryPath, u.indexes, Acc([], [], w.results, w.queue))
      case Fail(e) => Fail(e)
      case Ok(a) =>
        var q := if |a.sub| > 0 then a.queue + [Unit(u.pid, a.sub, a.nsym, entryPath)] else a.queue;
        assert Extends(a.queue, q, u.pid);
        ExtendsTrans(w.queue, a.queue, q, u.pid);
        Ok(Walk(stats, a.results, q))
  }

  /** The loop over the children of `u.path`, in listing order; a throw ends it. */
  function FoldChildren(pat: Pattern, exclude: Option<string -> bool>, seen: SeenMap, u: Unit,
                        children: seq<Dirent>, w: Walk): (r: Result<Walk, Error>)
    requires |u.indexes| > 0
    ensures r.Ok? ==> Extends(w.queue, r.value.queue, u.pid)
    decreases |children|
  {
    if children == [] then Ok(w)
    else
      match ChildStep(pat, exclude, seen, u, children[0], w)
      case Fail(e) => Fail(e)
      case Ok(w') =>
        var r := FoldChildren(pat, exclude, seen, u, children[1..], w');
        if r.Ok? then ExtendsTrans(w.queue, w'.queue, r.value.queue, u.pid); r else r
  }

  /** Line 119: a directory, or a symbolic link reached by some frontier index not marked as crossed. */
  predicate IsDirectory(stat: Option<Kind>, u: Unit) {
    stat == Some(Directory) || (stat == Some(SymbolicLink) && exists i :: i in u.indexes && i !in u.symlinks)
  }

  /** Line 120: the last index is active, or the pattern ends in `**` then "" and the path is a directory. */
  predicate IsLast(segs: seq<Segment>, isDir: bool, u: Unit) {
    var last := |segs| - 1;
    last in u.indexes
    || (IsLit(segs, last, "") && isDir && last - 1 >= 0 && (last - 1) in u.indexes && IsGlobstar(segs, last - 1))
  }

  /** Lines 123-137: an active first segment "", ".." or "." moves the unit to "/", to the parent, or keeps it, at index 1. */
  function Redirect(ctx: Ctx, segs: seq<Segment>, u: Unit, fullpath: Path): (r: Option<Unit>)
    ensures r.Some? <==> 0 in u.indexes && (IsLit(segs, 0, "") || IsLit(segs, 0, "..") || IsLit(segs, 0, "."))
    ensures r.Some? ==> r.value.pid == u.pid && r.value.indexes == [1] && r.value.symlinks == u.symlinks
  {
    if 0 !in u.indexes then None
    else if IsLit(segs, 0, "") then Some(Unit(u.pid, [1], u.symlinks, RootDir))
    else if IsLit(segs, 0, "..") then
      Some(Unit(u.pid, [1], u.symlinks,
                Relative(ctx.fs.cwd, ctx.root, Resolve(ctx.fs.cwd, fullpath, Path(false, [".."])))))
    else if IsLit(segs, 0, ".") then Some(Unit(u.pid, [1], u.symlinks, u.path))
    else None
  }

  /** Lines 139-150: the result a unit at its last segment contributes, and the stat cache after the probe. */
  function EmitLast(ctx: Ctx, segs: seq<Segment>, u: Unit, fullpath: Path, stat: Option<Kind>,
                    isLast: bool, stats: StatMap, results: seq<Path>): (StatMap, seq<Path>)
    requires |segs| >= 1
  {
    var last := |segs| - 1;
    if isLast && segs[last].Lit? then
      var target := Resolve(ctx.fs.cwd, fullpath, Path(false, [segs[last].text]));
      var (stats1, found) := StatLookup(ctx.fs, stats, target);
      if found.Some? && (segs[last].text != "" || found.value == Directory || found.value == SymbolicLink)
      then (stats1, Insert(results, Relative(ctx.fs.cwd, ctx.root, target)))
      else (stats1, results)
    else if isLast && segs[last].Globstar? && (u.path != Dot || IsLit(segs, 0, ".") || (|segs| == 1 && stat.Some?))
    then (stats, Insert(results, u.path))
    else (stats, results)
  }

  /** The whole mutable state of the walk: work queue, results and the cache's three maps. */
  datatype State = State(queue: seq<Unit>, results: seq<Path>, seen: SeenMap, stats: StatMap, listings: ListingMap)

  /** One iteration of the loop body for the popped unit `u`, with `rest` the queue below it. */
  function StepUnit(ctx: Ctx, u: Unit, rest: seq<Unit>, results: seq<Path>,
                    seen0: SeenMap, stats: StatMap, listings: ListingMap): (r: Result<State, Error>)
    requires ValidCtx(ctx) && ValidUnit(ctx, u) && ValidQueue(ctx, rest)
    ensures r.Ok? ==> ValidQueue(ctx, r.value.queue)
  {
    var pat := ctx.pats[u.pid];
    var seen := Marked(seen0, u.path, pat.keys, u.indexes);
    var fullpath := Resolve(ctx.fs.cwd, ctx.root, u.path);
    var (stats1, stat) := StatLookup(ctx.fs, stats, fullpath);
    var isDir := IsDirectory(stat, u);
    var redirect := Redirect(ctx, pat.segs, u, fullpath);
    if redirect.Some? then
      Ok(State(rest + [redirect.value], results, seen, stats1, listings))
    else
      var (stats2, results2) := EmitLast(ctx, pat.segs, u, fullpath, stat, IsLast(pat.segs, isDir, u), stats1, results);
      if !isDir then Ok(State(rest, results2, seen, stats2, listings))
      else
        var (listings1, children) := ListingLookup(ctx.fs, listings, fullpath);
        match FoldChildren(pat, ctx.exclude, seen, u, children, Walk(stats2, results2, rest))
        case Fail(e) => Fail(e)
        case Ok(w) =>
          assert forall k :: |rest| <= k < |w.queue| ==> ValidUnit(ctx, w.queue[k]);
          assert forall k :: 0 <= k < |rest| ==> w.queue[k] == rest[k];
          Ok(State(w.queue, w.results, seen, w.stats, listings1))
  }

  /** One iteration of the `while (queue.length > 0)` loop: pop the top unit and expand it. */
  function Step(ctx: Ctx, st: State): (r: Result<State, Error>)
    requires ValidCtx(ctx) && ValidQueue(ctx, st.queue) && |st.queue| > 0
    ensures r.Ok? ==> ValidQueue(ctx, r.value.queue)
  {
    StepUnit(ctx, st.queue[|st.queue| - 1], st.queue[..|st.queue| - 1], st.results, st.seen, st.stats, st.listings)
  }

  /** How a walk ends: with its results, with the `TypeError`, or (an artefact of the model) out of fuel. */
  datatype Outcome = Finished(results: seq<Path>) | Crashed(error: Error) | OutOfFuel

  /** The loop, run for at most `fuel` iterations. */
  function Run(ctx: Ctx, st: State, fuel: nat): Outcome
    requires ValidCtx(ctx) && ValidQueue(ctx, st.queue)
    decreases fuel, 0
  {
    if |st.queue| == 0 then Finished(st.results)
    else if fuel == 0 then OutOfFuel
    else RunFrom(ctx, Step(ctx, st), fuel - 1)
  }

  /** The rest of the loop after one iteration ended with `r`: the throw, or `fuel` more iterations. */
  function RunFrom(ctx: Ctx, r: Result<State, Error>, fuel: nat): Outcome
    requires ValidCtx(ctx) && (r.Ok? ==> ValidQueue(ctx, r.value.queue))
    decreases fuel, 1
  {
    match r
    case Fail(e) => Crashed(e)
    case Ok(st) => Run(ctx, st, fuel)
  }

  /** With an item on the queue and fuel left, the walk is one iteration followed by the rest. */
  lemma RunUnfold(ctx: Ctx, st: State, fuel: nat)
    requires ValidCtx(ctx) && ValidQueue(ctx, st.queue) && |st.queue| > 0 && fuel > 0
    ensures Step(ctx, st).Ok? ==> ValidQueue(ctx, Step(ctx, st).value.queue)
    ensures Run(ctx, st, fuel) == RunFrom(ctx, Step(ctx, st), fuel - 1)
  {
  }

  /** One iteration of the loop: the walk from a state goes on as the walk from its successor. */
  lemma RunAfterStep(ctx: Ctx, st: State, next: State, fuelNext: nat)
    requires ValidCtx(ctx) && ValidQueue(ctx, st.queue) && |st.queue| > 0
    requires Step(ctx, st) == Ok(next)
    ensures ValidQueue(ctx, next.queue) && Run(ctx, st, fuelNext + 1) == Run(ctx, next, fuelNext)
  {
    RunUnfold(ctx, st, fuelNext + 1);
  }

  /** The same fuel, however it is written, gives the same walk. */
  lemma RunSameFuel(ctx: Ctx, st: State, fuel: nat, fuel': nat)
    requires ValidCtx(ctx) && ValidQueue(ctx, st.queue) && fuel == fuel'
    ensures Run(ctx, st, fuel) == Run(ctx, st, fuel')
  {
  }

  /** The compiled alternatives of every pattern, in order (`flatMap` over the matchers). */
  function Flatten(matchers: seq<seq<Pattern>>): seq<Pattern> {
    if matchers == [] then [] else matchers[0] + Flatten(matchers[1..])
  }

  /** The initial queue: one unit per alternative, frontier {0}, no symlinks, at ".". */
  function Seeds(n: nat): (q: seq<Unit>)
    ensures |q| == n && forall k :: 0 <= k < n ==> q[k] == Unit(k, [0], [], Dot)
  {
    seq(n, k requires 0 <= k => Unit(k, [0], [], Dot))
  }

  /** The state before the loop: seeded queue, no results, empty caches. */
  function Init(n: nat): State {
    State(Seeds(n), [], map[], map[], map[])
  }
}

=== FILE: walker_facts.dfy ===
/**
 * What the walk of module Walker promises, proved layer by layer: the
 * per-index step for one child, the `forEach` over the frontier, the loop
 * over the children, one pop of the queue and the whole loop.
 *
 * The results only grow and stay free of duplicates (they are a `Set`);
 * a skipped child is neither queued nor reported; every unit pushed while
 * expanding a unit `u` belongs to the same pattern and has its frontier at
 * most two segments past `u`'s; a path that is not a directory is never
 * listed; and the fuel bound of `Run` is only an artefact.
 */
module WalkerFacts {
  import opened Wrappers
  import opened Paths
  import opened FsOracle
  import opened Patterns
  import opened GlobCache
  import opened Walker

  predicate Distinct<T(==)>(s: seq<T>) {
    forall i, j :: 0 <= i < j < |s| ==> s[i] != s[j]
  }

  /** `after` holds every path of `before`, and is free of duplicates when `before` is. */
  predicate Grown(before: seq<Path>, after: seq<Path>) {
    && (forall p :: p in before ==> p in after)
    && (Distinct(before) ==> Distinct(after))
  }

  /** `set.add` only grows a set. */
  lemma InsertGrown(s: seq<Path>, x: Path)
    ensures Grown(s, Insert(s, x))
  {
  }

  lemma GrownTrans(a: seq<Path>, b: seq<Path>, c: seq<Path>)
    requires Grown(a, b) && Grown(b, c)
    ensures Grown(a, c)
  {
  }

  /** Frontier index `x` lies at most two segments past some index of `idxs`. */
  predicate Near(x: nat, idxs: seq<nat>) {
    exists i :: i in idxs && i <= x <= i + 2
  }

  /**
   * A unit pushed while expanding `u` at the frontier indexes `idxs`: same
   * pattern, a frontier near `idxs`, and symbolic-link marks taken from
   * `idxs` or inherited from `u`.
   */
  predicate Successor(u: Unit, idxs: seq<nat>, v: Unit) {
    && v.pid == u.pid
    && |v.indexes| > 0
    && (forall x :: x in v.indexes ==> Near(x, idxs))
    && (forall x :: x in v.symlinks ==> x in idxs || x in u.symlinks)
  }

  /** The paths the per-index step for the child at `entryPath` may report: the child, `u.path` or its parent. */
  predicate NearChild(u: Unit, entryPath: Path, p: Path) {
    p == entryPath || p == u.path || p == Join(u.path, "..")
  }

  /** What the per-index steps for one child at the frontier indexes `idxs` may do to the accumulators. */
  predicate IndexEffect(u: Unit, entryPath: Path, idxs: seq<nat>, a: Acc, r: Acc) {
    && Grown(a.results, r.results)
    && (forall p :: p in r.results && p !in a.results ==> NearChild(u, entryPath, p))
    && |a.queue| <= |r.queue| && r.queue[..|a.queue|] == a.queue
    && (forall k :: |a.queue| <= k < |r.queue| ==>
          Successor(u, idxs, r.queue[k]) && (r.queue[k].path == u.path || r.queue[k].path == Join(u.path, "..")))
    && (forall x :: x in r.sub && x !in a.sub ==> Near(x, idxs))
    && (forall x :: x in r.nsym && x !in a.nsym ==> x in idxs)
  }

  /**
   * Exactly so: `subs` joined `subPatterns`, `syms` joined `nSymlinks`,
   * `paths` joined the results, and nothing was pushed.
   */
  ghost predicate Adds(a: Acc, r: Acc, subs: set<nat>, syms: set<nat>, paths: set<Path>) {
    && r.queue == a.queue
    && (forall x :: x in r.sub <==> x in a.sub || x in subs)
    && (forall x :: x in r.nsym <==> x in a.nsym || x in syms)
    && (forall p :: p in r.results <==> p in a.results || p in paths)
  }

  lemma EffectRefl(u: Unit, entryPath: Path, idxs: seq<nat>, a: Acc)
    ensures IndexEffect(u, entryPath, idxs, a, a)
  {
  }

  lemma EffectTrans(u: Unit, entryPath: Path, idxs: seq<nat>, a: Acc, b: Acc, c: Acc)
    requires IndexEffect(u, entryPath, idxs, a, b) && IndexEffect(u, entryPath, idxs, b, c)
    ensures IndexEffect(u, entryPath, idxs, a, c)
  {
    assert c.queue[..|a.queue|] == c.queue[..|b.queue|][..|a.queue|];
    forall k | |a.queue| <= k < |c.queue|
      ensures Successor(u, idxs, c.queue[k]) && (c.queue[k].path == u.path || c.queue[k].path == Join(u.path, ".."))
    {
      if k < |b.queue| {
        assert c.queue[k] == b.queue[k];
      }
    }
  }

  /** What holds at some frontier indexes holds at any larger set of them. */
  lemma EffectWiden(u: Unit, entryPath: Path, small: seq<nat>, big: seq<nat>, a: Acc, r: Acc)
    requires forall i :: i in small ==> i in big
    requires IndexEffect(u, entryPath, small, a, r)
    ensures IndexEffect(u, entryPath, big, a, r)
  {
    forall x: nat | Near(x, small)
      ensures Near(x, big)
    {
      var i :| i in small && i <= x <= i + 2;
      assert i in big;
    }
  }

  lemma AddSubEffect(u: Unit, entryPath: Path, idxs: seq<nat>, a: Acc, x: nat)
    requires Near(x, idxs)
    ensures IndexEffect(u, entryPath, idxs, a, AddSub(a, x))
  {
  }

  lemma AddSymEffect(u: Unit, entryPath: Path, idxs: seq<nat>, a: Acc, x: nat)
    requires x in idxs
    ensures IndexEffect(u, entryPath, idxs, a, AddSym(a, x))
  {
  }

  lemma AddResultEffect(u: Unit, entryPath: Path, idxs: seq<nat>, a: Acc, p: Path)
    requires NearChild(u, entryPath, p)
    ensures IndexEffect(u, entryPath, idxs, a, AddResult(a, p))
  {
    InsertGrown(a.results, p);
  }

  /** The `..` lookahead pushes a unit at `u.path` or its parent, at frontier `index + 2`, with `u`'s marks. */
  lemma PushEffect(u: Unit, entryPath: Path, index: nat, a: Acc, p: Path)
    requires p == u.path || p == Join(u.path, "..")
    ensures IndexEffect(u, entryPath, [index], a, PushUnit(a, Unit(u.pid, [index + 2], u.symlinks, p)))
  {
    var v := Unit(u.pid, [index + 2], u.symlinks, p);
    assert index in [index];
    assert Near(index + 2, [index]);
    assert PushUnit(a, v).queue[..|a.queue|] == a.queue;
  }

  /**
   * Lines 178-205: new frontier indexes lie in `index .. index + 2`, the only
   * new result is the child, and the child is marked at `index` exactly when
   * it is a symbolic link.  A directory reached without crossing a link keeps
   * `**` on its frontier, and a match of the segment after `**` that is not
   * last moves it to `index + 2`.
   */
  lemma GlobstarFrontierEffect(segs: seq<Segment>, u: Unit, entry: Dirent, entryPath: Path, index: nat, a: Acc)
    ensures IndexEffect(u, entryPath, [index], a, GlobstarFrontier(segs, u, entry, entryPath, index, a))
    ensures var r := GlobstarFrontier(segs, u, entry, entryPath, index, a);
            && r.queue == a.queue
            && (forall x :: x in r.sub && x !in a.sub ==> index <= x <= index + 2)
            && (forall p :: p in r.results && p !in a.results ==> p == entryPath)
            && (forall x :: x in r.nsym <==> x in a.nsym || (x == index && entry.kind == SymbolicLink))
            && (index !in u.symlinks && entry.kind == Directory ==> index in r.sub)
            && (At(segs, index + 1).Some? && TestPattern(At(segs, index + 1).value, entry.name) && index + 1 != |segs| - 1
                ==> index + 2 in r.sub)
  {
    var idxs := [index];
    var fromSymlink := index in u.symlinks;
    var nextMatches := At(segs, index + 1).Some? && TestPattern(At(segs, index + 1).value, entry.name);
    var a1 := GlobstarSelf(segs, entry, entryPath, index, fromSymlink, a);
    var a2 := GlobstarNext(segs, entryPath, index, nextMatches, a1);
    var a3 := GlobstarDescend(segs, entry, index, fromSymlink, nextMatches, a2);
    GlobstarSelfEffect(segs, u, entry, entryPath, index, fromSymlink, a);
    GlobstarNextEffect(segs, u, entryPath, index, nextMatches, a1);
    GlobstarDescendEffect(segs, u, entry, entryPath, index, fromSymlink, nextMatches, a2);
    EffectTrans(u, entryPath, idxs, a, a1, a2);
    EffectTrans(u, entryPath, idxs, a, a2, a3);
    if entry.kind == SymbolicLink {
      AddSymEffect(u, entryPath, idxs, a3, index);
      EffectTrans(u, entryPath, idxs, a, a3, AddSym(a3, index));
    }
  }

  lemma GlobstarSelfEffect(segs: seq<Segment>, u: Unit, entry: Dirent, entryPath: Path, index: nat,
                           fromSymlink: bool, a: Acc)
    ensures IndexEffect(u, entryPath, [index], a, GlobstarSelf(segs, entry, entryPath, index, fromSymlink, a))
    ensures Adds(a, GlobstarSelf(segs, entry, entryPath, index, fromSymlink, a),
                 if !fromSymlink && entry.kind == Directory then {index} else {}, {},
                 if !fromSymlink && entry.kind != Directory && index == |segs| - 1 then {entryPath} else {})
  {
    var idxs := [index];
    assert index in idxs && Near(index, idxs);
    if !fromSymlink && entry.kind == Directory {
      AddSubEffect(u, entryPath, idxs, a, index);
    } else if !fromSymlink && index == |segs| - 1 {
      AddResultEffect(u, entryPath, idxs, a, entryPath);
    } else {
      EffectRefl(u, entryPath, idxs, a);
    }
  }

  lemma GlobstarNextEffect(segs: seq<Segment>, u: Unit, entryPath: Path, index: nat, nextMatches: bool, a: Acc)
    ensures IndexEffect(u, entryPath, [index], a, GlobstarNext(segs, entryPath, index, nextMatches, a))
    ensures Adds(a, GlobstarNext(segs, entryPath, index, nextMatches, a),
                 if nextMatches && index + 1 != |segs| - 1 then {index + 2} else {}, {},
                 if nextMatches && index + 1 == |segs| - 1 then {entryPath} else {})
  {
    var idxs := [index];
    assert index in idxs && Near(index + 2, idxs);
    if nextMatches && index + 1 == |segs| - 1 {
      AddResultEffect(u, entryPath, idxs, a, entryPath);
    } else if nextMatches {
      AddSubEffect(u, entryPath, idxs, a, index + 2);
    } else {
      EffectRefl(u, entryPath, idxs, a);
    }
  }

  lemma GlobstarDescendEffect(segs: seq<Segment>, u: Unit, entry: Dirent, entryPath: Path, index: nat,
                              fromSymlink: bool, nextMatches: bool, a: Acc)
    ensures IndexEffect(u, entryPath, [index], a, GlobstarDescend(segs, entry, index, fromSymlink, nextMatches, a))
    ensures Adds(a, GlobstarDescend(segs, entry, index, fromSymlink, nextMatches, a),
                 if (nextMatches || IsLit(segs, 0, ".")) && (entry.kind == Directory || entry.kind == SymbolicLink) && !fromSymlink
                 then {index + 1} else {}, {}, {})
  {
    var idxs := [index];
    assert index in idxs && Near(index + 1, idxs);
    if (nextMatches || IsLit(segs, 0, ".")) && (entry.kind == Directory || entry.kind == SymbolicLink) && !fromSymlink {
      AddSubEffect(u, entryPath, idxs, a, index + 1);
    } else {
      EffectRefl(u, entryPath, idxs, a);
    }
  }

  /**
   * Lines 207-226: `**` then "" reports `u.path`; `**` then ".." as the last
   * two segments reports `u.path` and its parent; `**` then ".." with more
   * to come pushes, for `u.path` and for its parent, a unit at frontier
   * `index + 2` with `u`'s marks, unless that pair is already scheduled.
   * Nothing else changes.
   */
  lemma GlobstarLookaheadEffect(segs: seq<Segment>, keys: seq<string>, seen: SeenMap, u: Unit,
                                entry: Dirent, entryPath: Path, index: nat, a: Acc)
    ensures IndexEffect(u, entryPath, [index], a, GlobstarLookahead(segs, keys, seen, u, entry, index, a))
    ensures var r := GlobstarLookahead(segs, keys, seen, u, entry, index, a);
            var parent := Join(u.path, "..");
            var ahead := IsLit(segs, index + 1, "..") && entry.kind == Directory;
            && r.sub == a.sub && r.nsym == a.nsym
            && (forall p :: p in r.results <==>
                  || p in a.results
                  || (IsLit(segs, index + 1, "") && p == u.path)
                  || (ahead && index + 1 == |segs| - 1 && (p == u.path || p == parent)))
            && |a.queue| <= |r.queue| && r.queue[..|a.queue|] == a.queue
            && (forall k :: |a.queue| <= k < |r.queue| ==>
                  && r.queue[k].pid == u.pid && r.queue[k].indexes == [index + 2] && r.queue[k].symlinks == u.symlinks
                  && (r.queue[k].path == u.path || r.queue[k].path == parent)
                  && !Scheduled(seen, r.queue[k].path, keys, index + 2))
            && (ahead && index + 1 < |segs| - 1 ==>
                  |r.queue| == |a.queue| + (if Scheduled(seen, u.path, keys, index + 2) then 0 else 1)
                                         + (if Scheduled(seen, parent, keys, index + 2) then 0 else 1))
            && (!(ahead && index + 1 < |segs| - 1) ==> r.queue == a.queue)
  {
    var idxs := [index];
    var last := |segs| - 1;
    var nextIndex := index + 1;
    var r := GlobstarLookahead(segs, keys, seen, u, entry, index, a);
    if IsLit(segs, nextIndex, "") {
      AddResultEffect(u, entryPath, idxs, a, u.path);
    } else if IsLit(segs, nextIndex, "..") && entry.kind == Directory {
      var parent := Join(u.path, "..");
      if nextIndex < last {
        var a1 := if !Scheduled(seen, u.path, keys, nextIndex + 1)
                  then PushUnit(a, Unit(u.pid, [nextIndex + 1], u.symlinks, u.path)) else a;
        if a1 == a {
          EffectRefl(u, entryPath, idxs, a);
        } else {
          PushEffect(u, entryPath, index, a, u.path);
        }
        if r != a1 {
          PushEffect(u, entryPath, index, a1, parent);
          EffectTrans(u, entryPath, idxs, a, a1, r);
        }
      } else {
        var a1 := AddResult(a, parent);
        AddResultEffect(u, entryPath, idxs, a, parent);
        AddResultEffect(u, entryPath, idxs, a1, u.path);
        EffectTrans(u, entryPath, idxs, a, a1, r);
      }
    } else {
      EffectRefl(u, entryPath, idxs, a);
    }
  }

  /** The `GLOBSTAR` branch as a whole. */
  lemma GlobstarEffect(segs: seq<Segment>, keys: seq<string>, seen: SeenMap, u: Unit,
                       entry: Dirent, entryPath: Path, index: nat, a: Acc)
    ensures IndexEffect(u, entryPath, [index], a, GlobstarStep(segs, keys, seen, u, entry, entryPath, index, a))
  {
    var a1 := GlobstarFrontier(segs, u, entry, entryPath, index, a);
    GlobstarFrontierEffect(segs, u, entry, entryPath, index, a);
    GlobstarLookaheadEffect(segs, keys, seen, u, entry, entryPath, index, a1);
    EffectTrans(u, entryPath, [index], a, a1, GlobstarStep(segs, keys, seen, u, entry, entryPath, index, a));
  }

  /** The body of the `forEach` for one frontier index keeps to `IndexEffect`. */
  lemma IndexBodyEffect(segs: seq<Segment>, keys: seq<string>, seen: SeenMap, u: Unit,
                        entry: Dirent, entryPath: Path, index: nat, a: Acc)
    requires IndexBody(segs, keys, seen, u, entry, entryPath, index, a).Ok?
    ensures IndexEffect(u, entryPath, [index], a, IndexBody(segs, keys, seen, u, entry, entryPath, index, a).value)
  {
    var idxs := [index];
    var current := At(segs, index);
    var a1 := if current.Some? && current.value.Globstar?
              then GlobstarStep(segs, keys, seen, u, entry, entryPath, index, a) else a;
    if current.Some? && current.value.Globstar? {
      GlobstarEffect(segs, keys, seen, u, entry, entryPath, index, a);
    } else {
      EffectRefl(u, entryPath, idxs, a);
    }
    var r := IndexBody(segs, keys, seen, u, entry, entryPath, index, a).value;
    if current.Some? && current.value.Lit? {
      LiteralStepEffect(segs, current.value.text, u, entry, entryPath, index, a1);
    } else if current.Some? && current.value.Re? && current.value.test(entry.name) {
      RegexStepEffect(segs, u, entry, entryPath, index, a1);
    } else {
      EffectRefl(u, entryPath, idxs, a1);
    }
    EffectTrans(u, entryPath, idxs, a, a1, r);
  }

  /**
   * Lines 229-246: the literal matches the child's name at `index`, or a "."
   * is skipped and the next segment matches it at `index + 1`.  A match at
   * the last segment reports the child; any other match puts the segment
   * after it on the child's frontier.  Nothing else changes.
   */
  lemma LiteralStepEffect(segs: seq<Segment>, text: string, u: Unit, entry: Dirent, entryPath: Path,
                          index: nat, a: Acc)
    requires LiteralStep(segs, text, entry, entryPath, index, a).Ok?
    ensures IndexEffect(u, entryPath, [index], a, LiteralStep(segs, text, entry, entryPath, index, a).value)
    ensures var matched := text == entry.name || (text == "." && TestPattern(At(segs, index + 1).value, entry.name));
            var at := if text == entry.name then index else index + 1;
            Adds(a, LiteralStep(segs, text, entry, entryPath, index, a).value,
                 if matched && at != |segs| - 1 then {at + 1} else {}, {},
                 if matched && at == |segs| - 1 then {entryPath} else {})
  {
    var idxs := [index];
    assert index in idxs;
    if text == entry.name {
      if index == |segs| - 1 {
        AddResultEffect(u, entryPath, idxs, a, entryPath);
      } else {
        assert Near(index + 1, idxs);
        AddSubEffect(u, entryPath, idxs, a, index + 1);
      }
    } else if text == "." && TestPattern(At(segs, index + 1).value, entry.name) {
      if index + 1 == |segs| - 1 {
        AddResultEffect(u, entryPath, idxs, a, entryPath);
      } else {
        assert Near(index + 2, idxs);
        AddSubEffect(u, entryPath, idxs, a, index + 2);
      }
    } else {
      EffectRefl(u, entryPath, idxs, a);
    }
  }

  /**
   * Lines 247-255, for a name the expression accepts: at the last segment the
   * child is reported; otherwise a directory gets `index + 1` on its frontier
   * and anything else is dropped.
   */
  lemma RegexStepEffect(segs: seq<Segment>, u: Unit, entry: Dirent, entryPath: Path, index: nat, a: Acc)
    ensures IndexEffect(u, entryPath, [index], a, RegexStep(segs, entry, entryPath, index, a))
    ensures Adds(a, RegexStep(segs, entry, entryPath, index, a),
                 if index != |segs| - 1 && entry.kind == Directory then {index + 1} else {}, {},
                 if index == |segs| - 1 then {entryPath} else {})
  {
    var idxs := [index];
    assert index in idxs;
    if index == |segs| - 1 {
      AddResultEffect(u, entryPath, idxs, a, entryPath);
    } else if entry.kind == Directory {
      assert Near(index + 1, idxs);
      AddSubEffect(u, entryPath, idxs, a, index + 1);
    } else {
      EffectRefl(u, entryPath, idxs, a);
    }
  }

  /**
   * Lines 235-238: the literal step throws exactly when a "." that does not
   * equal the name is the last segment, so `testPattern` gets `undefined`.
   */
  lemma LiteralStepThrows(segs: seq<Segment>, text: string, entry: Dirent, entryPath: Path, index: nat, a: Acc)
    ensures LiteralStep(segs, text, entry, entryPath, index, a).Fail? <==>
            text != entry.name && text == "." && At(segs, index + 1).None?
  {
  }

  /** The redundancy guard of line 169: a child already scheduled at `index` or `index + 1` is left alone. */
  lemma RedundantIsSkipped(segs: seq<Segment>, keys: seq<string>, seen: SeenMap, u: Unit,
                           entry: Dirent, entryPath: Path, index: nat, a: Acc)
    requires Redundant(seen, keys, entryPath, index)
    ensures IndexStep(segs, keys, seen, u, entry, entryPath, index, a) == Ok(a)
  {
  }

  /** `indexes.forEach(...)` for one child keeps to `IndexEffect` over the whole frontier. */
  lemma {:induction false} FoldIndexesEffect(segs: seq<Segment>, keys: seq<string>, seen: SeenMap, u: Unit,
                                             entry: Dirent, entryPath: Path, idxs: seq<nat>, a: Acc)
    requires FoldIndexes(segs, keys, seen, u, entry, entryPath, idxs, a).Ok?
    ensures IndexEffect(u, entryPath, idxs, a, FoldIndexes(segs, keys, seen, u, entry, entryPath, idxs, a).value)
    decreases |idxs|
  {
    if idxs == [] {
      EffectRefl(u, entryPath, idxs, a);
    } else {
      var a' := IndexStep(segs, keys, seen, u, entry, entryPath, idxs[0], a).value;
      if Redundant(seen, keys, entryPath, idxs[0]) {
        EffectRefl(u, entryPath, [idxs[0]], a);
      } else {
        IndexBodyEffect(segs, keys, seen, u, entry, entryPath, idxs[0], a);
      }
      EffectWiden(u, entryPath, [idxs[0]], idxs, a, a');
      FoldIndexesEffect(segs, keys, seen, u, entry, entryPath, idxs[1..], a');
      var r := FoldIndexes(segs, keys, seen, u, entry, entryPath, idxs[1..], a').value;
      EffectWiden(u, entryPath, idxs[1..], idxs, a', r);
      EffectTrans(u, entryPath, idxs, a, a', r);
    }
  }

  /** A child `c` of `u.path` the child loop does not skip. */
  predicate ChildPath(exclude: Option<string -> bool>, u: Unit, children: seq<Dirent>, p: Path) {
    exists c :: c in children && !Skipped(exclude, c.name) && p == Join(u.path, c.name)
  }

  /** The paths the loop over `children` may report or queue: `u.path`, its parent, or a child it does not skip. */
  predicate FromChildren(exclude: Option<string -> bool>, u: Unit, children: seq<Dirent>, p: Path) {
    p == u.path || p == Join(u.path, "..") || ChildPath(exclude, u, children, p)
  }

  /** What the loop over `children` may do to the stat cache, the results and the queue. */
  predicate ChildEffect(exclude: Option<string -> bool>, u: Unit, children: seq<Dirent>, w: Walk, r: Walk) {
    && Grown(w.results, r.results)
    && (forall p :: p in r.results && p !in w.results ==> FromChildren(exclude, u, children, p))
    && |w.queue| <= |r.queue| && r.queue[..|w.queue|] == w.queue
    && (forall k :: |w.queue| <= k < |r.queue| ==>
          Successor(u, u.indexes, r.queue[k]) && FromChildren(exclude, u, children, r.queue[k].path))
    && (forall p :: p in w.stats ==> p in r.stats)
    && (forall p :: p in r.stats && (p !in w.stats || r.stats[p] != w.stats[p]) ==> ChildPath(exclude, u, children, p))
  }

  lemma ChildRefl(exclude: Option<string -> bool>, u: Unit, children: seq<Dirent>, w: Walk)
    ensures ChildEffect(exclude, u, children, w, w)
  {
  }

  lemma ChildTrans(exclude: Option<string -> bool>, u: Unit, children: seq<Dirent>, w: Walk, v: Walk, r: Walk)
    requires ChildEffect(exclude, u, children, w, v) && ChildEffect(exclude, u, children, v, r)
    ensures ChildEffect(exclude, u, children, w, r)
  {
    assert r.queue[..|w.queue|] == r.queue[..|v.queue|][..|w.queue|];
    forall k | |w.queue| <= k < |r.queue|
      ensures Successor(u, u.indexes, r.queue[k]) && FromChildren(exclude, u, children, r.queue[k].path)
    {
      if k < |v.queue| {
        assert r.queue[k] == v.queue[k];
      }
    }
  }

  /** What holds for some of the children holds for all of them. */
  lemma ChildWiden(exclude: Option<string -> bool>, u: Unit, small: seq<Dirent>, big: seq<Dirent>, w: Walk, r: Walk)
    requires forall c :: c in small ==> c in big
    requires ChildEffect(exclude, u, small, w, r)
    ensures ChildEffect(exclude, u, big, w, r)
  {
    forall p | ChildPath(exclude, u, small, p)
      ensures ChildPath(exclude, u, big, p)
    {
      var c :| c in small && !Skipped(exclude, c.name) && p == Join(u.path, c.name);
      assert c in big;
    }
  }

  /** A child whose name starts with "." or that `exclude` rejects changes nothing. */
  lemma SkippedChildUntouched(pat: Pattern, exclude: Option<string -> bool>, seen: SeenMap, u: Unit,
                              entry: Dirent, w: Walk)
    requires |u.indexes| > 0 && Skipped(exclude, entry.name)
    ensures ChildStep(pat, exclude, seen, u, entry, w) == Ok(w)
  {
  }

  /**
   * One child: the stat cache learns the child's kind, results grow by the
   * child, `u.path` or its parent, and the child's unit carries the frontier
   * `subPatterns` and the marks `nSymlinks`.
   */
  lemma ChildStepEffect(pat: Pattern, exclude: Option<string -> bool>, seen: SeenMap, u: Unit,
                        entry: Dirent, w: Walk)
    requires |u.indexes| > 0
    requires ChildStep(pat, exclude, seen, u, entry, w).Ok?
    ensures ChildEffect(exclude, u, [entry], w, ChildStep(pat, exclude, seen, u, entry, w).value)
    ensures !Skipped(exclude, entry.name) ==>
              var r := ChildStep(pat, exclude, seen, u, entry, w).value;
              var entryPath := Join(u.path, entry.name);
              var a := FoldIndexes(pat.segs, pat.keys, seen, u, entry, entryPath, u.indexes, Acc([], [], w.results, w.queue));
              && a.Ok?
              && r.stats == w.stats[entryPath := Some(entry.kind)]
              && r.results == a.value.results
              && |a.value.queue| <= |r.queue| <= |a.value.queue| + 1 && r.queue[..|a.value.queue|] == a.value.queue
              && (|r.queue| > |a.value.queue| <==> |a.value.sub| > 0)
              && (|r.queue| > |a.value.queue| ==> r.queue[|a.value.queue|] == Unit(u.pid, a.value.sub, a.value.nsym, entryPath))
  {
    if Skipped(exclude, entry.name) {
      ChildRefl(exclude, u, [entry], w);
    } else {
      var entryPath := Join(u.path, entry.name);
      assert ChildPath(exclude, u, [entry], entryPath) by {
        assert entry in [entry];
      }
      var a0 := Acc([], [], w.results, w.queue);
      FoldIndexesEffect(pat.segs, pat.keys, seen, u, entry, entryPath, u.indexes, a0);
      var a := FoldIndexes(pat.segs, pat.keys, seen, u, entry, entryPath, u.indexes, a0).value;
      var r := ChildStep(pat, exclude, seen, u, entry, w).value;
      assert r.results == a.results;
      assert r.stats == w.stats[entryPath := Some(entry.kind)];
      forall k | |w.queue| <= k < |r.queue|
        ensures Successor(u, u.indexes, r.queue[k]) && FromChildren(exclude, u, [entry], r.queue[k].path)
      {
        if k < |a.queue| {
          assert r.queue[k] == a.queue[k];
        } else {
          assert r.queue[k] == Unit(u.pid, a.sub, a.nsym, entryPath);
        }
      }
    }
  }

  /** The loop over the children of `u.path` keeps to `ChildEffect`. */
  lemma {:induction false} FoldChildrenEffect(pat: Pattern, exclude: Option<string -> bool>, seen: SeenMap, u: Unit,
                                              children: seq<Dirent>, w: Walk)
    requires |u.indexes| > 0
    requires FoldChildren(pat, exclude, seen, u, children, w).Ok?
    ensures ChildEffect(exclude, u, children, w, FoldChildren(pat, exclude, seen, u, children, w).value)
    decreases |children|
  {
    if children == [] {
      ChildRefl(exclude, u, children, w);
    } else {
      var w' := ChildStep(pat, exclude, seen, u, children[0], w).value;
      ChildStepEffect(pat, exclude, seen, u, children[0], w);
      ChildWiden(exclude, u, [children[0]], children, w, w');
      FoldChildrenEffect(pat, exclude, seen, u, children[1..], w');
      var r := FoldChildren(pat, exclude, seen, u, children[1..], w').value;
      ChildWiden(exclude, u, children[1..], children, w', r);
      ChildTrans(exclude, u, children, w, w', r);
    }
  }

  /** Lines 139-150 add at most one result. */
  lemma EmitLastGrown(ctx: Ctx, segs: seq<Segment>, u: Unit, fullpath: Path, stat: Option<Kind>,
                      isLast: bool, stats: StatMap, results: seq<Path>)
    requires |segs| >= 1
    ensures Grown(results, EmitLast(ctx, segs, u, fullpath, stat, isLast, stats, results).1)
    ensures var results' := EmitLast(ctx, segs, u, fullpath, stat, isLast, stats, results).1;
            |results| <= |results'| <= |results| + 1 && results'[..|results|] == results
  {
    var results' := EmitLast(ctx, segs, u, fullpath, stat, isLast, stats, results).1;
    EmitLastRules(ctx, segs, u, fullpath, stat, isLast, stats, results);
    var last := segs[|segs| - 1];
    if results' != results {
      if last.Lit? {
        InsertGrown(results, Relative(ctx.fs.cwd, ctx.root, Resolve(ctx.fs.cwd, fullpath, Path(false, [last.text]))));
      } else {
        InsertGrown(results, u.path);
      }
    }
  }

  /** Lines 139-150 never change a cached stat: the literal's probe only adds an entry. */
  lemma EmitLastKeepsStats(ctx: Ctx, segs: seq<Segment>, u: Unit, fullpath: Path, stat: Option<Kind>,
                           isLast: bool, stats: StatMap, results: seq<Path>)
    requires |segs| >= 1
    ensures var stats' := EmitLast(ctx, segs, u, fullpath, stat, isLast, stats, results).0;
            forall p :: p in stats ==> p in stats' && stats'[p] == stats[p]
  {
    var last := |segs| - 1;
    if isLast && segs[last].Lit? {
      StatLookupKeeps(ctx.fs, stats, Resolve(ctx.fs.cwd, fullpath, Path(false, [segs[last].text])));
    }
  }

  /** `statSync` never changes an entry already in the stat cache. */
  lemma StatLookupKeeps(fs: FileSystem, stats: StatMap, p: Path)
    ensures var stats' := StatLookup(fs, stats, p).0;
            forall q :: q in stats ==> q in stats' && stats'[q] == stats[q]
  {
  }

  /**
   * Lines 139-150: a result is added only at the last segment.  For a
   * literal, only when `lstat` of it under `fullpath` succeeds and it is
   * non-empty or names a directory or a symbolic link, and the result is
   * that path relative to the root.  For `**`, the result is `u.path`, and
   * "." only when the pattern starts with "." or is the single `**` and the
   * root exists.  A regular expression last adds nothing here.  Conversely,
   * each of those conditions does add its result.
   */
  lemma EmitLastRules(ctx: Ctx, segs: seq<Segment>, u: Unit, fullpath: Path, stat: Option<Kind>,
                      isLast: bool, stats: StatMap, results: seq<Path>)
    requires |segs| >= 1
    ensures var results' := EmitLast(ctx, segs, u, fullpath, stat, isLast, stats, results).1;
            && (results' != results ==> isLast)
            && (segs[|segs| - 1].Re? ==> results' == results)
            && (segs[|segs| - 1].Lit? && results' != results ==>
                  var target := Resolve(ctx.fs.cwd, fullpath, Path(false, [segs[|segs| - 1].text]));
                  var found := StatLookup(ctx.fs, stats, target).1;
                  && found.Some?
                  && (segs[|segs| - 1].text != "" || found.value == Directory || found.value == SymbolicLink)
                  && results' == Insert(results, Relative(ctx.fs.cwd, ctx.root, target)))
            && (segs[|segs| - 1].Globstar? && results' != results ==>
                  && results' == Insert(results, u.path)
                  && (u.path == Dot ==> IsLit(segs, 0, ".") || (|segs| == 1 && stat.Some?)))
    ensures var results' := EmitLast(ctx, segs, u, fullpath, stat, isLast, stats, results).1;
            isLast && segs[|segs| - 1].Lit? ==>
              var text := segs[|segs| - 1].text;
              var target := Resolve(ctx.fs.cwd, fullpath, Path(false, [text]));
              var found := StatLookup(ctx.fs, stats, target).1;
              found.Some? && (text != "" || found.value == Directory || found.value == SymbolicLink)
              ==> results' == Insert(results, Relative(ctx.fs.cwd, ctx.root, target))
                  && Relative(ctx.fs.cwd, ctx.root, target) in results'
    ensures var results' := EmitLast(ctx, segs, u, fullpath, stat, isLast, stats, results).1;
            isLast && segs[|segs| - 1].Globstar? && (u.path != Dot || IsLit(segs, 0, ".") || (|segs| == 1 && stat.Some?))
            ==> results' == Insert(results, u.path) && u.path in results'
  {
  }

  /**
   * One pop of the queue (lines 112-261): results only grow, the rest of the
   * queue stays as it was below the pushed units, and every pushed unit is a
   * successor of the popped one.
   */
  lemma StepUnitEffect(ctx: Ctx, u: Unit, rest: seq<Unit>, results: seq<Path>,
                       seen0: SeenMap, stats: StatMap, listings: ListingMap)
    requires ValidCtx(ctx) && ValidUnit(ctx, u) && ValidQueue(ctx, rest)
    requires StepUnit(ctx, u, rest, results, seen0, stats, listings).Ok?
    ensures var st := StepUnit(ctx, u, rest, results, seen0, stats, listings).value;
            && Grown(results, st.results)
            && |rest| <= |st.queue| && st.queue[..|rest|] == rest
            && (forall k :: |rest| <= k < |st.queue| ==> Successor(u, u.indexes, st.queue[k]))
  {
    var st := StepUnit(ctx, u, rest, results, seen0, stats, listings).value;
    var pat := ctx.pats[u.pid];
    var seen := Marked(seen0, u.path, pat.keys, u.indexes);
    var fullpath := Resolve(ctx.fs.cwd, ctx.root, u.path);
    var (stats1, stat) := StatLookup(ctx.fs, stats, fullpath);
    var isDir := IsDirectory(stat, u);
    var redirect := Redirect(ctx, pat.segs, u, fullpath);
    if redirect.Some? {
      assert 0 in u.indexes && Near(1, u.indexes);
      assert st.queue == rest + [redirect.value];
      assert Successor(u, u.indexes, redirect.value);
    } else {
      var (stats2, results2) := EmitLast(ctx, pat.segs, u, fullpath, stat, IsLast(pat.segs, isDir, u), stats1, results);
      EmitLastGrown(ctx, pat.segs, u, fullpath, stat, IsLast(pat.segs, isDir, u), stats1, results);
      if isDir {
        var (listings1, children) := ListingLookup(ctx.fs, listings, fullpath);
        FoldChildrenEffect(pat, ctx.exclude, seen, u, children, Walk(stats2, results2, rest));
        GrownTrans(results, results2, st.results);
      }
    }
  }

  /**
   * One pop of the queue (lines 112-261), its bookkeeping: the popped unit
   * is marked as scheduled at every index of its frontier, cached listings
   * never change, and a path that is not a directory is never listed.
   */
  lemma StepUnitMarks(ctx: Ctx, u: Unit, rest: seq<Unit>, results: seq<Path>,
                      seen0: SeenMap, stats: StatMap, listings: ListingMap)
    requires ValidCtx(ctx) && ValidUnit(ctx, u) && ValidQueue(ctx, rest)
    requires StepUnit(ctx, u, rest, results, seen0, stats, listings).Ok?
    ensures var st := StepUnit(ctx, u, rest, results, seen0, stats, listings).value;
            && st.seen == Marked(seen0, u.path, ctx.pats[u.pid].keys, u.indexes)
            && (forall i :: i in u.indexes ==> Scheduled(st.seen, u.path, ctx.pats[u.pid].keys, i))
            && (forall p :: p in listings ==> p in st.listings && st.listings[p] == listings[p])
            && (!IsDirectory(StatLookup(ctx.fs, stats, Resolve(ctx.fs.cwd, ctx.root, u.path)).1, u) ==> st.listings == listings)
  {
    var st := StepUnit(ctx, u, rest, results, seen0, stats, listings).value;
    var pat := ctx.pats[u.pid];
    forall i | i in u.indexes
      ensures Scheduled(st.seen, u.path, pat.keys, i)
    {
      MarkedSeen(seen0, u.path, pat.keys, u.indexes, i);
    }
  }

  /**
   * Lines 123-137: a unit whose frontier holds 0 and whose pattern starts
   * with "", ".." or "." reports nothing, lists nothing and is replaced by
   * exactly one unit with frontier {1} and the same marks: at "/", at the
   * parent of its resolved path (relative to the root), or at the same path.
   */
  lemma FirstSegmentRedirect(ctx: Ctx, u: Unit, rest: seq<Unit>, results: seq<Path>,
                             seen0: SeenMap, stats: StatMap, listings: ListingMap)
    requires ValidCtx(ctx) && ValidUnit(ctx, u) && ValidQueue(ctx, rest)
    requires 0 in u.indexes
    requires var segs := ctx.pats[u.pid].segs; IsLit(segs, 0, "") || IsLit(segs, 0, "..") || IsLit(segs, 0, ".")
    ensures var r := StepUnit(ctx, u, rest, results, seen0, stats, listings);
            var segs := ctx.pats[u.pid].segs;
            var fullpath := Resolve(ctx.fs.cwd, ctx.root, u.path);
            && r.Ok?
            && r.value.results == results
            && r.value.listings == listings
            && r.value.seen == Marked(seen0, u.path, ctx.pats[u.pid].keys, u.indexes)
            && |r.value.queue| == |rest| + 1 && r.value.queue[..|rest|] == rest
            && var v := r.value.queue[|rest|];
               && v.pid == u.pid && v.indexes == [1] && v.symlinks == u.symlinks
               && (IsLit(segs, 0, "") ==> v.path == RootDir)
               && (IsLit(segs, 0, "..") ==>
                     v.path == Relative(ctx.fs.cwd, ctx.root, Resolve(ctx.fs.cwd, fullpath, Path(false, [".."]))))
               && (IsLit(segs, 0, ".") ==> v.path == u.path)
  {
    var r := StepUnit(ctx, u, rest, results, seen0, stats, listings);
    assert r.value.queue[..|rest|] == rest;
  }

  /**
   * Lines 106-109: the initial queue holds every compiled alternative exactly
   * once, at ".", with frontier {0} and no marks, and the last alternative
   * is on top, so it is expanded first.
   */
  lemma InitQueue(ctx: Ctx)
    ensures var q := Init(|ctx.pats|).queue;
            && ValidQueue(ctx, q)
            && Distinct(q)
            && (forall pid :: 0 <= pid < |ctx.pats| ==> Unit(pid, [0], [], Dot) in q)
            && (forall v :: v in q ==> v.pid < |ctx.pats| && v.path == Dot && v.indexes == [0] && v.symlinks == [])
            && (|q| > 0 ==> q[|q| - 1].pid == |ctx.pats| - 1)
  {
    var q := Init(|ctx.pats|).queue;
    forall pid | 0 <= pid < |ctx.pats|
      ensures Unit(pid, [0], [], Dot) in q
    {
      assert q[pid] == Unit(pid, [0], [], Dot);
    }
  }

  /** One iteration of the loop only adds to the results. */
  lemma StepGrown(ctx: Ctx, st: State)
    requires ValidCtx(ctx) && ValidQueue(ctx, st.queue) && |st.queue| > 0
    requires Step(ctx, st).Ok?
    ensures Grown(st.results, Step(ctx, st).value.results)
  {
    StepUnitEffect(ctx, st.queue[|st.queue| - 1], st.queue[..|st.queue| - 1], st.results, st.seen, st.stats, st.listings);
  }

  /** The loop only adds to the results: whatever was found before is still found when it finishes. */
  lemma {:induction false} RunResultsGrow(ctx: Ctx, st: State, fuel: nat)
    requires ValidCtx(ctx) && ValidQueue(ctx, st.queue)
    requires Run(ctx, st, fuel).Finished?
    ensures Grown(st.results, Run(ctx, st, fuel).results)
    decreases fuel
  {
    if |st.queue| > 0 {
      var f := fuel - 1;
      RunSameFuel(ctx, st, fuel, f + 1);
      RunUnfold(ctx, st, f + 1);
      var next := Step(ctx, st).value;
      StepGrown(ctx, st);
      RunResultsGrow(ctx, next, f);
      GrownTrans(st.results, next.results, Run(ctx, next, f).results);
    }
  }

  /** The result set of a walk has no duplicates. */
  lemma GlobResultsDistinct(ctx: Ctx, fuel: nat)
    requires ValidCtx(ctx)
    requires Run(ctx, Init(|ctx.pats|), fuel).Finished?
    ensures Distinct(Run(ctx, Init(|ctx.pats|), fuel).results)
  {
    RunResultsGrow(ctx, Init(|ctx.pats|), fuel);
  }

  /** More fuel changes nothing once the walk has ended: the fuel bound is not part of the behaviour. */
  lemma {:induction false} RunFuelMonotone(ctx: Ctx, st: State, fuel: nat, more: nat)
    requires ValidCtx(ctx) && ValidQueue(ctx, st.queue)
    requires fuel <= more && !Run(ctx, st, fuel).OutOfFuel?
    ensures Run(ctx, st, more) == Run(ctx, st, fuel)
    decreases fuel, 0
  {
    if |st.queue| > 0 {
      var f, m := fuel - 1, more - 1;
      RunSameFuel(ctx, st, fuel, f + 1);
      RunSameFuel(ctx, st, more, m + 1);
      RunUnfold(ctx, st, f + 1);
      RunUnfold(ctx, st, m + 1);
      RunFromFuelMonotone(ctx, Step(ctx, st), f, m);
    }
  }

  lemma {:induction false} RunFromFuelMonotone(ctx: Ctx, r: Result<State, Error>, fuel: nat, more: nat)
    requires ValidCtx(ctx) && (r.Ok? ==> ValidQueue(ctx, r.value.queue))
    requires fuel <= more && !RunFrom(ctx, r, fuel).OutOfFuel?
    ensures RunFrom(ctx, r, more) == RunFrom(ctx, r, fuel)
    decreases fuel, 1
  {
    if r.Ok? {
      RunFuelMonotone(ctx, r.value, fuel, more);
    }
  }

  /**
   * Lines 192-197: when the segment after `**` matches a child, frontier
   * index `index + 2` is activated for it even when the child is a plain
   * file.  With pattern `** / a / b` and a file named "a", the child's
   * frontier is {2}.
   */
  lemma LookaheadIgnoresKind()
    ensures var segs := [Globstar, Lit("a"), Lit("b")];
            var u := Unit(0, [0], [], Dot);
            GlobstarStep(segs, ["**", "a", "b"], map[], u, Dirent("a", Other), Path(false, ["a"]), 0,
                         Acc([], [], [], [])).sub == [2]
  {
    var segs := [Globstar, Lit("a"), Lit("b")];
    assert At(segs, 1) == Some(Lit("a"));
    assert !IsLit(segs, 1, "") && !IsLit(segs, 1, "..");
  }
}

=== FILE: wrappers.dfy ===
/** Small failure-carrying datatypes shared by the model. */
module Wrappers {

  /** A value that may be missing: `null`/`undefined` in the source. */
  datatype Option<+T> = None | Some(value: T) {
    function GetOr(default: T): T {
      match this
      case Some(v) => v
      case None => default
    }
  }

  /** The outcome of a computation that can throw. */
  datatype Result<+T, +E> = Ok(value: T) | Fail(error: E)
}
